=== FILE: README.md ===
# A Dafny model of the couples app core

This project models the decision logic of a small couples app. The app has a FastAPI backend (`backend/server.py`) and a React client (`frontend/src/App.js`). The model covers:

- **Pairing.** Each user's pairing code is derived from their user id. A second user links with the first by typing that code. The model covers the code endpoints, the partner match and the new couple record.
- **Connection registry.** The model keeps the set of active users and, for each couple, a list of its connected members. `connect`, `disconnect` and `send_to_partner` operate on that state.
- **Moods.** A mood is created for the sender's couple. A listed mood disappears at its expiry time.
- **Tasks.** A task is assigned to the partner. The list is the newest twenty tasks. `submit_proof` runs its guards in order and moves a task from `pending` to `completed`.
- **Client helpers.** The countdown text, the pairing-code input and its submit gate, screen routing, the status badge, the WebSocket message dispatch and the WebSocket address.

Everything is pure. Time is an integer count of milliseconds, and the clock is a parameter `now`. The MongoDB collections are abstracted as follows:

- `users` is a map from user id to the optional `couple_id`.
- `tasks` and `moods` are sequences in collection order.
- Couple lists are an association list in dictionary insertion order.

A `find_one` query may return any matching document. The model therefore takes the returned document as a parameter `pick`, and a predicate states what `find_one` promises about it: `Pairing.IsFindOne` and `Tasks.IsPartnerQuery`. The connection registry takes two more inputs:

- the database lookup of a user's couple, as a function;
- the partners whose socket send raises, as a set.

Modules, one per file:

- `Wrappers` (Option, Result)
- `Shared`
- `Ids`
- `Ascii` (case folding, digits)
- `Decimal` (numerals)
- `Pairing`
- `Connections`
- `Recent` (the shared "newest first, at most N" query)
- `Moods`
- `Tasks`
- `Client`
- `Notify` (the messages `create_mood` and `create_task` push, and what `json.dumps` makes of them)
- `Flows`, which holds properties that span the backend and the client.

`Shared` holds the constants both sides use (milliseconds per minute and hour, the six-character code length) and `Min`.

## Model

| member | source | states |
|---|---|---|
| Pairing.LastSix | backend/server.py:379 | `id[-6:]` is the last `min(6, len(id))` characters of the id |
| Pairing.CodeOf | backend/server.py:379 | the derived code has `min(6, len(id))` characters, each the upper-cased matching character of the id's tail |
| Pairing.GetPairingCode | backend/server.py:372-386 | a missing user is refused with 401, a paired one with "Already linked", and exactly an existing unpaired user gets their derived code |
| Pairing.GeneratePairingCode | backend/server.py:388-402 | refuses exactly when `/pairing/code` refuses, with the same error. Otherwise it returns the same code with the message "Pairing code generated" |
| Pairing.Link | backend/server.py:405-453 | a missing requester gets 401. A paired requester gets "Already linked" before any lookup. On success the partner is another unpaired user whose derived code equals the upper-cased code, and the couple record is `(id, requester, partner, code.upper(), now)`. Both users get the new couple id, and every other user and no key changes |
| Pairing.Candidate | backend/server.py:413-419 | the partner query's filter: another user, with no `couple_id`, whose id ends in the code ignoring case |
| Pairing.IsFindOne | backend/server.py:413-419 | what `find_one` may return for that filter: some matching user, or nothing only when no user matches |
| Pairing.EligibleIsCandidate | backend/server.py:413-426 | a user who passes the exact last-6 re-check also matches the case-insensitive suffix query |
| Pairing.CandidateIsEligible | backend/server.py:413-426 | for a six-character code, every document the suffix query can return passes the re-check |
| Pairing.LinkSucceedsIff | backend/server.py:413-426 | for an unpaired requester and a six-character code, a link succeeds exactly when some other unpaired user's id ends in the code, ignoring case |
| Pairing.WrongLengthCodeNotFound | backend/server.py:413-426 | when every id has at least six characters, a code of any other length (including `""`, `"12345"`, `"1234567"`) is answered "not found" |
| Pairing.LinkTwiceFails | backend/server.py:407-408 | after a successful link, a second link by the same requester is refused as "Already linked" |
| Pairing.LinkedUsersNoLongerCandidates | backend/server.py:416-418 | after a link, neither member of the new couple can be found by any pairing query |
| Pairing.ThirdUserCannotReuseCode | backend/server.py:416-426 | once the only user with a code is linked, a third user typing the same code gets "not found" |
| Pairing.LinkPreservesConsistency | backend/server.py:428-447 | a link keeps the users table and the couples collection consistent: every paired user is a member of their couple, and every couple's members point back to it |
| Pairing.PairUpdateConsistent | backend/server.py:436-445 | pointing two unpaired users at a fresh couple that names them keeps that invariant |
| Pairing.CoupleHasTwoMembers | backend/server.py:428-447 | in a consistent state, the users carrying a couple id are exactly that couple's `user1` and `user2` |
| Connections.AddMember | backend/server.py:59-62 | appends the user to the couple's list unless they are already in it (a missing entry counts as empty). Other couples' lists are unchanged |
| Connections.Connect | backend/server.py:53-62 | the user always becomes active. An unpaired user leaves the lists unchanged. A paired user's couple list is unchanged when it already holds them and otherwise gains them at the end, and other lists are unchanged |
| Connections.RemoveFirst | backend/server.py:71 | `list.remove` drops one occurrence: the multiset loses exactly one copy of the user when they were listed, the length falls by one exactly then, every other user stays, and a list without the user is unchanged |
| Connections.RemoveFirstIsListRemove | backend/server.py:71 | the removed copy is the first one: with the first occurrence at `k`, the result is the list before `k` followed by the list after it, in order |
| Connections.Disconnect | backend/server.py:64-72 | the user leaves the active set. Only the first list containing the user loses one occurrence of them, and the other entries are unchanged; no list gains anyone and only the user may leave one |
| Connections.DisconnectUnknownIsNoOp | backend/server.py:64-72 | disconnecting a user that is neither active nor listed changes nothing |
| Connections.Deliver | backend/server.py:81-85 | a partner receives the message exactly when they are active and their send does not raise. Exactly the partners whose send raises lose their socket; the couple lists keep their keys and order, gain nobody, and lose nobody but failing partners. Each partner receives it at most once when the partner list has no repeats, and there are never more recipients than partners |
| Connections.DeliverDisconnectsFailing | backend/server.py:84-85 | under the invariant every failing partner is taken out of its couple list, so the lists lose exactly the failing partners |
| Connections.SendToPartner | backend/server.py:74-85 | the sender never receives their own message. An unpaired sender reaches nobody and changes nothing. Otherwise exactly the listed, active, non-failing members of the sender's couple other than the sender receive it; exactly the failing ones lose their socket, and the lists lose nobody else. Never more recipients than listed members, and no repeats when the list has none |
| Connections.SendDisconnectsFailing | backend/server.py:74-85 | under the invariant a send takes every failing partner out of the couple's list |
| Connections.InitialWf | backend/server.py:49-51 | the empty registry satisfies the invariant: unique couple keys, duplicate-free lists, and every listed user active and belonging to that couple |
| Connections.AtMostOneList | backend/server.py:69-72 | under the invariant a user is in at most one list, so stopping at the first list loses nothing |
| Connections.ConnectPreservesWf | backend/server.py:53-62 | `connect` keeps the registry invariant |
| Connections.DisconnectPreservesWf | backend/server.py:64-72 | `disconnect` keeps the invariant and removes the user from every list |
| Connections.DeliverPreservesWf | backend/server.py:81-85 | disconnecting failing partners keeps the invariant |
| Connections.SendDeliversOnce | backend/server.py:77-85 | under the invariant a couple list holds nobody twice, so a send reaches each partner at most once |
| Connections.SendStaysInCouple | backend/server.py:74-85 | a send keeps the invariant, and every recipient belongs to the sender's couple |
| Recent.Insert | backend/server.py:494 | inserting into a newest-first list keeps it newest first and adds exactly one element |
| Recent.SortNewestFirst | backend/server.py:494 | `.sort("created_at", -1)` yields a newest-first permutation of its input |
| Recent.Newest | backend/server.py:494 | `.to_list(n)` after the sort keeps `min(n, len(s))` elements, newest first. Every element it drops is no newer than every element it keeps |
| Recent.Filter | backend/server.py:491-493 | the filter keeps every matching element, with its multiplicity, and nothing else |
| Recent.Query | backend/server.py:491-494 | the result has at most `limit` matching elements of the input, newest first, none more often than stored. A matching element is left out only when the result is full of elements at least as new |
| Moods.CreateMood | backend/server.py:457-484 | an unpaired caller is refused. Otherwise the mood belongs to the caller and their couple and expires `duration_minutes` after its creation. A suggestion is requested exactly for `feeling_spicy`, `horny` and `teasing` |
| Moods.GetMoods | backend/server.py:486-496 | an unpaired caller gets nothing. Otherwise the caller gets at most ten of their couple's moods with `expires_at > now`, newest first, none repeated beyond its stored copies, leaving a visible mood out only when ten newer-or-equal ones are shown |
| Moods.MoodVisibleUntilExpiry | backend/server.py:490-493 | a new mood is listed at every time before `now + duration` and hidden from that instant on |
| Tasks.StatusName | backend/server.py:141 | the five status strings, each read back to its status |
| Tasks.ParseStatusInverse | backend/server.py:141 | a string reads as a status exactly when it is one of the five names, and then renders back to itself |
| Tasks.CreateTask | backend/server.py:499-534 | an unpaired caller gets 400. If the couple has no other member, the caller gets 404. Otherwise the task goes from the caller to another member of the couple. It starts `pending`, expires `duration_minutes` after creation, has no proof, timestamps or message, and is worth 5 tokens |
| Tasks.CreateTaskIgnoresRequestedTokens | backend/server.py:156 | the `tokens_earned` of the request has no effect on the created task |
| Tasks.CreateTaskReceiverIsPartner | backend/server.py:505-518 | in a consistent users table, creator and receiver are exactly the two members of the couple |
| Tasks.IsPartnerQuery | backend/server.py:505-508 | what `find_one` may return for the partner query: another user of the caller's couple, or nothing only when there is none |
| Tasks.GetTasks | backend/server.py:536-545 | an unpaired caller gets nothing. Otherwise the caller gets at most twenty of their couple's tasks, of any status, newest first, none repeated beyond its stored copies, leaving one out only when twenty newer-or-equal ones are shown |
| Tasks.GetTasksListsAllWhenFew | backend/server.py:541-543 | while fewer than twenty tasks are stored, every task of the caller's couple is listed |
| Tasks.FindTask | backend/server.py:549 | `find_one({"id": ...})` finds the first task with that id, or reports that none has it |
| Tasks.SubmitProof | backend/server.py:547-579 | the guards run in order: missing task 404, not the receiver 403, not pending 400, `now > expires_at` 400 (with the comparison the code evidently intends). A refused call changes nothing. Success moves exactly that task from `pending` to `completed` and records the proof, and every other field and task is unchanged |
| Tasks.SubmitProofAsWritten | backend/server.py:547-579 | as written, a call that passes the first three guards always fails with 500, and the earlier guards answer as in the corrected handler |
| Tasks.SubmitProofAsWrittenFailsInTime | backend/server.py:559-567 | a receiver submitting in time is accepted by the corrected handler but gets 500 from the handler as written |
| Tasks.SubmitAtExpiryAccepted | backend/server.py:559 | proof is still accepted at the expiry instant itself |
| Tasks.SubmitProofOnlyAdvances | backend/server.py:562-570 | a submission changes no status except `pending` to `completed` |
| Tasks.SubmitTwiceFails | backend/server.py:556-557 | a second submission for a completed task is refused as not pending |
| Tasks.CompletedAtNeverSet | backend/server.py:146 | a task created and then completed still has no `completed_at` |
| Client.TimeRemaining | frontend/src/App.js:461-471 | "expired" exactly when `expiresAt - now <= 0`. Otherwise `0 <= minutes <= 59`, and hours and minutes bracket the difference to the minute |
| Client.TimeLeftUnique | frontend/src/App.js:468-469 | only one hours/minutes pair brackets a given difference, so the countdown is determined by that bracketing |
| Client.FormatTimeRemaining | frontend/src/App.js:461-471 | the text is "Expired" exactly when the deadline is not in the future; otherwise it starts with a digit and ends in `m` |
| Client.FormatTimeRemainingParses | frontend/src/App.js:468-471 | the numbers before `h ` and `m` in the text read back as the hours and minutes of the countdown |
| Decimal.NatToString | frontend/src/App.js:471 | a whole number renders as digits, with a leading `0` only for zero |
| Decimal.ParseNatToString | frontend/src/App.js:471 | reading a rendered number back gives the number |
| Client.Digits | frontend/src/App.js:237 | `replace(/\D/g, '')` yields only digit characters, no longer than its input, and holds exactly the characters of the input that are digits |
| Client.DigitsAppend | frontend/src/App.js:237 | the digits of a concatenation are the digits of each part, in order |
| Client.DigitsCons | frontend/src/App.js:237 | the filter keeps a leading character exactly when it is a digit, in front of the digits of the rest |
| Client.DigitsOfChar | frontend/src/App.js:237 | a single character is kept exactly when it is a digit; with the previous row this fixes every digit in its place |
| Client.SanitizeCode | frontend/src/App.js:237 | the sanitised input is all digits, at most six of them, and a prefix of the input's digits in order, of length `min(6, number of digits)` |
| Client.SanitizeFixedPoints | frontend/src/App.js:237 | the sanitiser leaves an input unchanged exactly when it is at most six digits |
| Client.SanitizeIdempotent | frontend/src/App.js:237 | sanitising twice equals sanitising once |
| Client.CanSubmitLink | frontend/src/App.js:249 | the link button is enabled when no request is in flight and the code has exactly six characters |
| Client.CanSubmitAfterSanitize | frontend/src/App.js:237-249 | the link button is enabled exactly when nothing is loading and the typed text held at least six digits |
| Client.SanitizeRejectsNonDigitCodes | frontend/src/App.js:237 | a code holding a non-digit can never be produced by the input |
| Client.Route | frontend/src/App.js:624-643 | loading shows the loading screen. Otherwise no user shows login, a user without a truthy `couple_id` shows pairing, and the rest see the dashboard |
| Client.Badge | frontend/src/App.js:588-592 | green exactly for `completed`, red exactly for `expired`, yellow for every other status |
| Client.Dispatch | frontend/src/App.js:405-412 | `mood_update` refetches moods. `new_task` and `task_completed` refetch tasks. Any other type does nothing |
| Client.DispatchAll | frontend/src/App.js:403-413 | one run of the message effect yields at most one fetch per message and never a no-op entry |
| Client.DispatchAllFetches | frontend/src/App.js:403-413 | one run of the message effect fetches moods exactly when some message is a mood update, and fetches tasks exactly when some message concerns a task |
| Client.DispatchAllReplays | frontend/src/App.js:403-413 | a new message re-dispatches every earlier one before its own |
| Client.FindFirst | frontend/src/App.js:62 | finds the first occurrence of a pattern, or reports that none exists |
| Client.ReplaceFirst | frontend/src/App.js:62 | `String.replace` with a string pattern: with no occurrence the text is unchanged; otherwise, at the first occurrence, the text before it is kept, the replacement follows, and the rest after the matched pattern is kept |
| Client.WebSocketUrl | frontend/src/App.js:62 | the socket address ends in `/ws/` and the user id, and is two characters shorter than the plain concatenation exactly when the backend address contains `https://` |
| Client.WebSocketUrlSecure | frontend/src/App.js:62 | an `https://` backend gets the `wss://` address on the same host, followed by `/ws/` and the user id |
| Client.WebSocketUrlPlain | frontend/src/App.js:62 | a backend address without `https://` is kept as it is, so an `http://` backend yields an `http://` socket address |
| Ascii.FoldAgrees | backend/server.py:415-426 | two strings agree lower-cased exactly when they agree upper-cased, so the regex test and the re-check fold the same way |
| Flows.ServerEventsRefreshTheirList | backend/server.py:473-476 | each notification that is delivered makes the client refetch the list it changed (see the second Findings row on delivery) |
| Notify.Encode | backend/server.py:473-476 | the intended encoding of a message: the result is always accepted by `json.dumps`, and a value it already accepts is kept as it is |
| Notify.Send | backend/server.py:74-85 | a message `json.dumps` accepts is sent exactly as a plain send with only the broken sockets failing; one it refuses reaches nobody |
| Notify.CreatedMessagesUndumpable | backend/server.py:473-476 | the `mood_update` message built from `mood_obj.dict()` and the `new_task` message built from `task_obj.dict()` both hold `datetime` values, so `json.dumps` refuses them |
| Notify.NotificationAsWrittenReachesNobody | backend/server.py:81-85 | as written, a mood or task notification reaches nobody, and every listed partner of the sender loses their socket and leaves the couple's list |
| Notify.MembersListed | backend/server.py:79 | every member of a couple's list is among the listed users |
| Notify.SendEncoded | backend/server.py:74-85 | with the message encoded first, the send behaves as a plain send in which only broken sockets fail |
| Notify.EncodedNotificationReachesPartner | backend/server.py:79-85 | with the message encoded, exactly the listed, connected partners with a working socket receive it, each at most once when the list has no repeats, and only partners with a broken socket are disconnected |
| Flows.BadgeForStatus | frontend/src/App.js:588-592 | over the five stored statuses the badge is green only for `completed`, red only for `expired`, and yellow for `pending`, `approved` and `rejected` |
| Flows.LinkPreservesRegistry | backend/server.py:441-447 | linking two unpaired users keeps the connection registry consistent with the users table |
| Flows.NotificationReachesOnlyPartner | backend/server.py:74-85 | with a consistent users table and registry, a paired user's notification reaches nobody but their partner, and the partner at most once |
| Flows.RouteAfterLink | backend/server.py:441-447 | logging in before the link shows both members the pairing screen, and logging in again after it shows both the dashboard |
| Flows.ClientReachesOnlyDigitCodes | frontend/src/App.js:237 | a link made with the client's sanitised input only ever reaches a partner whose derived code is all digits |

## Left out

- Authentication is left out: JWT, bcrypt, registration and login. `get_current_user` is reduced to "the user document exists, or 401".
- `get_ai_suggestion` and the mock suggestion are left out, because they are an LLM call and a random choice. The model records only whether a suggestion is requested.
- The model does not include a token ledger, rewards, task approval or rejection, an expiry sweep, or task deletion. None of them is implemented in `backend/server.py`.
- MongoDB I/O, indexes and the atomicity of the separate `update_one` writes in `link_with_partner` are left out. The store is an abstract map, and each request is one atomic step.
- WebSocket accept, send and receive, the echo loop, CORS, axios, localStorage and React rendering are left out. A send is modelled only by whether it raises: because its socket is broken, or because `json.dumps` refuses the message (module `Notify`).
- Pairing.Link: the regex filter is modelled as a case-insensitive suffix test. Regex metacharacters in an unescaped code (`.`, `*`, `[`) are not interpreted, and a code with an unbalanced `[` or `(` makes the MongoDB regex invalid, so the source answers 500 where the model answers "not found".
- Ascii.Upper: Python's `upper()` and `lower()` are modelled on ASCII letters only. Unicode case mapping is not modelled.
- Pairing.WrongLengthCodeNotFound: requires every id to have at least six characters, as uuid ids do. A shorter id could match a shorter code.
- Connections.SendToPartner: reading `couple_connections[c]` on a defaultdict creates an empty entry, and this is not recorded. It cannot be observed by any operation.
- Moods.CreateMood: `utcnow()` is read once for `created_at` and once for `expires_at`. The model uses a single `now` for both.
- Moods.CreateMood and Tasks.CreateTask: the request models' default `duration_minutes` of 60 is filled in by request parsing before the handler runs, so every modelled request carries a duration.
- Tasks.CreateTask: likewise `expires_at` (backend/server.py:513) and the `created_at` default (backend/server.py:144) each read `utcnow()`; the model uses a single `now`.
- Moods.CreateMood: `intensity` and `duration_minutes` are not validated by the source, and they are not restricted here either. The source answers 500 in two cases that the model answers with success. A `duration_minutes` that puts `expires_at` outside years 1 to 9999 makes `utcnow() + timedelta(...)` raise `OverflowError` (backend/server.py:461). An `intensity` outside the signed 64-bit range cannot be encoded to BSON by `insert_one` (backend/server.py:471). The model has no calendar bound on its millisecond times.
- Tasks.CreateTask: likewise, a `duration_minutes` that puts `expires_at` outside years 1 to 9999 makes `utcnow() + timedelta(...)` raise `OverflowError` (backend/server.py:513). The source answers 500 where the model answers with success. The overflow comes long before `duration_minutes` could leave the 64-bit range that `insert_one` can encode (backend/server.py:526).
- Moods.GetMoods: the model states which stored moods the query returns, not the encoded response. The handler returns the raw documents, which still carry MongoDB's `_id` (an `ObjectId`), and FastAPI's default encoder has no rule for an `ObjectId`. So as written any non-empty answer is probably a 500 (backend/server.py:496).
- Tasks.GetTasks: likewise, the model states the query result, not the encoded response. The raw documents with their `ObjectId` `_id` are returned as they are (backend/server.py:545), so as written any non-empty answer is probably a 500.
- Client.TimeRemaining: an invalid date, which makes `diff` NaN, is not modelled.
- Client.DispatchAll: only the effect of one run of the hook is modelled. The fetch requests themselves are not.
- The WebSocket endpoint's wiring of `connect` and `disconnect` is left out.
- `submit_proof` leaves a task `pending` when it refuses a late proof; it does not move it to `expired`. No handler in `backend/server.py` moves a task to `expired`, `approved` or `rejected`.
- `submit_proof` never writes `completed_at` (see Tasks.CompletedAtNeverSet).
- The server sends only three notification kinds: `mood_update`, `new_task` and `task_completed`.
- Flows.RouteAfterLink: after a successful link, `PairingScreen` reloads the page (frontend/src/App.js:204). `AuthProvider` then starts with no user object and does not fetch one from the stored token (frontend/src/App.js:11-24), so the requester sees the login form. The partner receives no event and stays on the pairing screen. The lemma covers only the user object of a fresh login.

## Findings

| source | as written | input that shows it | evidently intended | confidence | as-written member | corrected member |
|---|---|---|---|---|---|---|
| backend/server.py:559-567 | After the three guards pass, `task["expires_at"].replace("Z", "+00:00")` is called on a stored `datetime`, which raises `TypeError`. `proof.proof_url` then names a field `TaskProof` lacks, which raises `AttributeError`. `submit_proof` has no `try`, so FastAPI turns the uncaught exception into a 500, and the task is never completed. | A pending task `t1` from `alice` to `bob` expiring at 3600000 ms, with proof submitted by `bob` at 60000 ms | compare `now > expires_at` on the stored time; on success set `completed`, `proof_text` and the photo field (`proof_photo_base64`, the `TaskProof` field; backend_test.py:245-249 sends `proof_url`, so that name may be the one meant) | not executed | Tasks.SubmitProofAsWritten (Tasks.SubmitProofAsWrittenFailsInTime) | Tasks.SubmitProof |
| backend/server.py:81-85 | `create_mood` and `create_task` pass `mood_obj.dict()` and `task_obj.dict()` to `send_to_partner`. Their `created_at` and `expires_at` are `datetime` values, and `send_json` encodes with `json.dumps`, which raises `TypeError` on a `datetime`. The bare `except` takes it for a broken socket and disconnects the partner. So as written no `mood_update` or `new_task` reaches a partner, and every listed partner is dropped from the registry until they reconnect. | `alice` and `bob` paired and both connected, then `alice` shares a mood | encode the message first (FastAPI's `jsonable_encoder` turns each `datetime` into ISO 8601 text), so that only a broken socket makes a send fail | not executed; relies on Starlette's `send_json` encoding with `json.dumps` | Notify.Send (Notify.NotificationAsWrittenReachesNobody, Notify.CreatedMessagesUndumpable) | Notify.SendEncoded (Notify.EncodedNotificationReachesPartner) |

=== FILE: ascii.dfy ===
/** ASCII character classes and case folding.

    Python's `str.upper()`/`str.lower()`, MongoDB's case-insensitive regex
    option and JavaScript's `\D` class are modelled on the ASCII range only;
    every other character is left unchanged by the folding functions. */
module Ascii {

  predicate IsLowerLetter(c: char)
  {
    'a' <= c <= 'z'
  }

  predicate IsUpperLetter(c: char)
  {
    'A' <= c <= 'Z'
  }

  predicate IsDigit(c: char)
  {
    '0' <= c <= '9'
  }

  predicate AllDigits(s: string)
  {
    forall i :: 0 <= i < |s| ==> IsDigit(s[i])
  }

  function UpperChar(c: char): char
  {
    if IsLowerLetter(c) then (c as int - 32) as char else c
  }

  function LowerChar(c: char): char
  {
    if IsUpperLetter(c) then (c as int + 32) as char else c
  }

  function Upper(s: string): (r: string)
    ensures |r| == |s|
    ensures forall i :: 0 <= i < |s| ==> r[i] == UpperChar(s[i])
  {
    seq(|s|, i requires 0 <= i < |s| => UpperChar(s[i]))
  }

  function Lower(s: string): (r: string)
    ensures |r| == |s|
    ensures forall i :: 0 <= i < |s| ==> r[i] == LowerChar(s[i])
  {
    seq(|s|, i requires 0 <= i < |s| => LowerChar(s[i]))
  }

  /** Upper-casing a character leaves no lower-case letter behind, and
      upper-casing twice is the same as once. */
  lemma UpperCharFolds(c: char)
    ensures !IsLowerLetter(UpperChar(c))
    ensures UpperChar(UpperChar(c)) == UpperChar(c)
    ensures IsDigit(c) ==> UpperChar(c) == c
  {
  }

  /** Comparing two characters after lower-casing agrees with comparing them
      after upper-casing: the regex's case-insensitive test and the backend's
      `.upper()` double-check decide the same question. */
  lemma FoldAgreesChar(a: char, b: char)
    ensures LowerChar(a) == LowerChar(b) <==> UpperChar(a) == UpperChar(b)
  {
  }

  lemma {:induction false} FoldAgrees(a: string, b: string)
    ensures Lower(a) == Lower(b) <==> Upper(a) == Upper(b)
  {
    if |a| == |b| {
      if Lower(a) == Lower(b) {
        forall i | 0 <= i < |a|
          ensures Upper(a)[i] == Upper(b)[i]
        {
          assert Lower(a)[i] == Lower(b)[i];
          FoldAgreesChar(a[i], b[i]);
        }
      }
      if Upper(a) == Upper(b) {
        forall i | 0 <= i < |a|
          ensures Lower(a)[i] == Lower(b)[i]
        {
          assert Upper(a)[i] == Upper(b)[i];
          FoldAgreesChar(a[i], b[i]);
        }
      }
    }
  }
}

=== FILE: client.dfy ===
/** The pure decisions of the React client `frontend/src/App.js`: the
    countdown text, the pairing-code input, screen routing, the status badge,
    websocket message dispatch and the websocket address. */
module Client {
  import opened Wrappers
  import opened Ascii
  import opened Shared
  import Decimal

  datatype TimeLeft = Expired | Left(hours: int, minutes: int)

  /** The countdown for a deadline. JavaScript's `Math.floor(diff / h)` and
      `diff % h` agree with Dafny's `/` and `%` because `diff` is positive
      on that path. */
  function TimeRemaining(expiresAt: int, now: int): (r: TimeLeft)
    ensures r.Expired? <==> expiresAt - now <= 0
    ensures r.Left? ==>
      var diff := expiresAt - now;
      && r.hours >= 0
      && 0 <= r.minutes <= 59
      && r.hours * MillisPerHour + r.minutes * MillisPerMinute <= diff
      && diff < r.hours * MillisPerHour + (r.minutes + 1) * MillisPerMinute
  {
    var diff := expiresAt - now;
    if diff <= 0 then Expired
    else
      var hours := diff / MillisPerHour;
      var rest := diff % MillisPerHour;
      var minutes := rest / MillisPerMinute;
      assert diff == hours * MillisPerHour + rest;
      assert rest == minutes * MillisPerMinute + rest % MillisPerMinute;
      Left(hours, minutes)
  }

  /** The hours and minutes are the only ones that bracket the difference:
      the countdown is fully determined by its contract. */
  lemma {:induction false} TimeLeftUnique(diff: int, h1: int, m1: int, h2: int, m2: int)
    requires 0 <= m1 <= 59 && 0 <= m2 <= 59
    requires h1 * MillisPerHour + m1 * MillisPerMinute <= diff < h1 * MillisPerHour + (m1 + 1) * MillisPerMinute
    requires h2 * MillisPerHour + m2 * MillisPerMinute <= diff < h2 * MillisPerHour + (m2 + 1) * MillisPerMinute
    ensures h1 == h2 && m1 == m2
  {
    var a := h1 * 60 + m1;
    var b := h2 * 60 + m2;
    assert a * MillisPerMinute <= diff < (a + 1) * MillisPerMinute;
    assert b * MillisPerMinute <= diff < (b + 1) * MillisPerMinute;
    assert a == b;
  }

  /** `formatTimeRemaining`: "Expired", or `${hours}h ${minutes}m`. The
      text reads "Expired" exactly when the deadline is not in the future;
      otherwise it starts with a digit and ends in `m`. */
  function FormatTimeRemaining(expiresAt: int, now: int): (r: string)
    ensures r == "Expired" <==> expiresAt - now <= 0
    ensures expiresAt - now > 0 ==> |r| >= 4 && IsDigit(r[0]) && r[|r| - 1] == 'm'
  {
    match TimeRemaining(expiresAt, now)
    case Expired => "Expired"
    case Left(h, m) =>
      var r := Decimal.NatToString(h) + "h " + Decimal.NatToString(m) + "m";
      assert r[0] == Decimal.NatToString(h)[0];
      r
  }

  /** Reading the countdown text back: the hours and minutes before `h ` and
      `m` are the bracketing ones of `TimeRemaining`. */
  lemma {:induction false} FormatTimeRemainingParses(expiresAt: int, now: int)
    requires expiresAt - now > 0
    ensures var t := TimeRemaining(expiresAt, now);
            var hs := Decimal.NatToString(t.hours);
            var ms := Decimal.NatToString(t.minutes);
            && FormatTimeRemaining(expiresAt, now) == hs + "h " + ms + "m"
            && Decimal.ParseDigits(hs) == t.hours
            && Decimal.ParseDigits(ms) == t.minutes
  {
    var t := TimeRemaining(expiresAt, now);
    Decimal.ParseNatToString(t.hours);
    Decimal.ParseNatToString(t.minutes);
  }

  /** `value.replace(/\D/g, '')`: the digits of the input, in order. */
  function Digits(s: string): (r: string)
    ensures AllDigits(r)
    ensures |r| <= |s|
    ensures forall c :: c in r <==> c in s && IsDigit(c)
  {
    if |s| == 0 then ""
    else if IsDigit(s[0]) then [s[0]] + Digits(s[1..])
    else Digits(s[1..])
  }

  /** Removing the non-digits works piecewise: the digits of a concatenation
      are the digits of the first part followed by those of the second, so,
      character by character, every digit is kept in its place. */
  lemma {:induction false} DigitsAppend(a: string, b: string)
    ensures Digits(a + b) == Digits(a) + Digits(b)
  {
    if |a| > 0 {
      var c, rest := a[0], a[1..];
      var head := if IsDigit(c) then [c] else [];
      assert a + b == [c] + (rest + b);
      assert a == [c] + rest;
      DigitsCons(c, rest + b);
      DigitsCons(c, rest);
      DigitsAppend(rest, b);
      assert head + (Digits(rest) + Digits(b)) == (head + Digits(rest)) + Digits(b);
    } else {
      assert a + b == b;
    }
  }

  /** One step of the filter: the first character is kept exactly when it
      is a digit, ahead of the digits of the rest. */
  lemma DigitsCons(c: char, s: string)
    ensures Digits([c] + s) == (if IsDigit(c) then [c] else []) + Digits(s)
  {
    assert ([c] + s)[0] == c;
    assert ([c] + s)[1..] == s;
  }

  /** A single character survives exactly when it is a digit. */
  lemma DigitsOfChar(c: char)
    ensures Digits([c]) == if IsDigit(c) then [c] else []
  {
    assert [c][1..] == [];
  }

  /** The input handler: keep the digits, then `.slice(0, 6)`. */
  function SanitizeCode(s: string): (r: string)
    ensures AllDigits(r)
    ensures |r| <= CodeLength
    ensures r <= Digits(s)
    ensures |r| == Min(CodeLength, |Digits(s)|)
  {
    var d := Digits(s);
    if |d| <= CodeLength then d else d[..CodeLength]
  }

  lemma {:induction false} DigitsOfDigits(s: string)
    requires AllDigits(s)
    ensures Digits(s) == s
  {
    if |s| > 0 {
      DigitsOfDigits(s[1..]);
    }
  }

  /** The sanitiser leaves an input alone exactly when it is already at most
      six digits; in particular sanitising twice is sanitising once. */
  lemma SanitizeFixedPoints(s: string)
    ensures SanitizeCode(s) == s <==> AllDigits(s) && |s| <= CodeLength
  {
    if AllDigits(s) {
      DigitsOfDigits(s);
    }
  }

  lemma SanitizeIdempotent(s: string)
    ensures SanitizeCode(SanitizeCode(s)) == SanitizeCode(s)
  {
    SanitizeFixedPoints(SanitizeCode(s));
  }

  /** `disabled={loading || pairingCode.length !== 6}`, negated. */
  predicate CanSubmitLink(loading: bool, code: string)
  {
    !loading && |code| == CodeLength
  }

  /** Whatever is typed, the button enables exactly when the input held at
      least six digits and no request is in flight. */
  lemma CanSubmitAfterSanitize(loading: bool, s: string)
    ensures CanSubmitLink(loading, SanitizeCode(s)) <==> !loading && |Digits(s)| >= CodeLength
  {
  }

  /** The input can never produce a code that holds anything but digits. */
  lemma SanitizeRejectsNonDigitCodes(code: string, s: string)
    requires !AllDigits(code)
    ensures SanitizeCode(s) != code
  {
  }

  /** The user object the client keeps after login; `couple_id` is `null` for
      an unpaired user. */
  datatype ClientUser = ClientUser(id: string, coupleId: Option<string>)

  datatype Screen = LoadingScreen | LoginScreen | PairingScreen | DashboardScreen

  /** JavaScript truthiness of `user.couple_id`: `null` and `""` are falsy. */
  predicate HasCouple(u: ClientUser)
  {
    u.coupleId.Some? && u.coupleId.value != ""
  }

  function Route(loading: bool, user: Option<ClientUser>): (r: Screen)
    ensures r == LoadingScreen <==> loading
    ensures r == LoginScreen <==> !loading && user.None?
    ensures r == PairingScreen <==> !loading && user.Some? && !HasCouple(user.value)
    ensures r == DashboardScreen <==> !loading && user.Some? && HasCouple(user.value)
  {
    if loading then LoadingScreen
    else if user.None? then LoginScreen
    else if !HasCouple(user.value) then PairingScreen
    else DashboardScreen
  }

  datatype BadgeColour = Green | Red | Yellow

  /** The badge colour for a status string; anything unrecognised is yellow. */
  function Badge(status: string): (r: BadgeColour)
    ensures r == Green <==> status == "completed"
    ensures r == Red <==> status == "expired"
    ensures r == Yellow <==> status != "completed" && status != "expired"
  {
    if status == "completed" then Green
    else if status == "expired" then Red
    else Yellow
  }

  datatype Effect = RefetchMoods | RefetchTasks | NoEffect

  function Dispatch(messageType: string): (e: Effect)
    ensures e == RefetchMoods <==> messageType == "mood_update"
    ensures e == RefetchTasks <==> messageType == "new_task" || messageType == "task_completed"
  {
    if messageType == "mood_update" then RefetchMoods
    else if messageType == "new_task" then RefetchTasks
    else if messageType == "task_completed" then RefetchTasks
    else NoEffect
  }

  /** One run of the effect hook over the accumulated messages: the fetches it
      starts, in order. The hook re-runs over the whole list whenever a
      message arrives, so earlier messages trigger their fetch again. */
  function DispatchAll(messageTypes: seq<string>): (r: seq<Effect>)
    ensures |r| <= |messageTypes|
    ensures NoEffect !in r
  {
    if |messageTypes| == 0 then []
    else
      var e := Dispatch(messageTypes[0]);
      if e == NoEffect then DispatchAll(messageTypes[1..])
      else [e] + DispatchAll(messageTypes[1..])
  }

  /** A run starts a fetch of the moods exactly when some message is a mood
      update, and of the tasks exactly when some message concerns a task. */
  lemma {:induction false} DispatchAllFetches(messageTypes: seq<string>)
    ensures RefetchMoods in DispatchAll(messageTypes) <==> "mood_update" in messageTypes
    ensures RefetchTasks in DispatchAll(messageTypes) <==>
              "new_task" in messageTypes || "task_completed" in messageTypes
  {
    if |messageTypes| > 0 {
      DispatchAllFetches(messageTypes[1..]);
      assert messageTypes == [messageTypes[0]] + messageTypes[1..];
    }
  }

  /** A new message re-dispatches every earlier one: the fetches of the
      longer list begin with all the fetches of the shorter. */
  lemma {:induction false} DispatchAllReplays(messageTypes: seq<string>, m: string)
    ensures DispatchAll(messageTypes + [m]) ==
            DispatchAll(messageTypes) + (if Dispatch(m) == NoEffect then [] else [Dispatch(m)])
  {
    if |messageTypes| > 0 {
      assert (messageTypes + [m])[1..] == messageTypes[1..] + [m];
      DispatchAllReplays(messageTypes[1..], m);
    } else {
      assert DispatchAll([m][1..]) == [];
    }
  }

  predicate OccursAt(s: string, pat: string, k: nat)
  {
    k + |pat| <= |s| && s[k..k + |pat|] == pat
  }

  /** The position of the first occurrence of `pat` in `s`. */
  function FindFirst(s: string, pat: string, from: nat): (r: Option<nat>)
    requires from <= |s|
    ensures r.Some? ==> from <= r.value && OccursAt(s, pat, r.value)
    ensures r.Some? ==> forall k :: from <= k < r.value ==> !OccursAt(s, pat, k)
    ensures r.None? ==> forall k :: from <= k <= |s| ==> !OccursAt(s, pat, k)
    decreases |s| - from
  {
    if from + |pat| > |s| then None
    else if s[from..from + |pat|] == pat then Some(from)
    else FindFirst(s, pat, from + 1)
  }

  /** `String.prototype.replace` with a string pattern: only the first
      occurrence, wherever it is, is replaced. */
  function ReplaceFirst(s: string, pat: string, rep: string): (r: string)
    ensures (forall k :: 0 <= k <= |s| ==> !OccursAt(s, pat, k)) ==> r == s
    ensures forall k :: 0 <= k <= |s| && OccursAt(s, pat, k) && (forall j :: 0 <= j < k ==> !OccursAt(s, pat, j)) ==>
      && |r| == |s| - |pat| + |rep|
      && r[..k] == s[..k]
      && r[k..k + |rep|] == rep
      && r[k + |rep|..] == s[k + |pat|..]
  {
    match FindFirst(s, pat, 0)
    case None => s
    case Some(k) =>
      var r := s[..k] + rep + s[k + |pat|..];
      assert r[..k] == s[..k] && r[k..k + |rep|] == rep && r[k + |rep|..] == s[k + |pat|..];
      r
  }

  /** The socket address: the backend address with its first `https://`
      turned into `wss://`, then `/ws/` and the user id. */
  function WebSocketUrl(backendUrl: string, userId: string): (r: string)
    ensures |r| >= |userId| + 4 && r[|r| - |userId| - 4..] == "/ws/" + userId
    ensures |r| == |backendUrl| + 4 + |userId| - (if FindFirst(backendUrl, "https://", 0).Some? then 2 else 0)
  {
    var base := ReplaceFirst(backendUrl, "https://", "wss://");
    var tail := "/ws/" + userId;
    assert |base| == |backendUrl| - (if FindFirst(backendUrl, "https://", 0).Some? then 2 else 0);
    assert (base + tail)[|base + tail| - |tail|..] == tail;
    base + tail
  }

  /** An `https://` backend gets a `wss://` socket on the same host. */
  lemma WebSocketUrlSecure(backendUrl: string, userId: string)
    requires |backendUrl| >= 8 && backendUrl[..8] == "https://"
    ensures WebSocketUrl(backendUrl, userId) == "wss://" + backendUrl[8..] + "/ws/" + userId
  {
    assert OccursAt(backendUrl, "https://", 0);
    var base := ReplaceFirst(backendUrl, "https://", "wss://");
    assert base[..0] == [] && base[0..6] == "wss://" && base[6..] == backendUrl[8..];
    assert base == base[0..6] + base[6..];
  }

  /** A backend address without `https://` is used as it is: an `http://`
      backend yields an `http://` socket address. */
  lemma WebSocketUrlPlain(backendUrl: string, userId: string)
    requires forall k :: 0 <= k <= |backendUrl| ==> !OccursAt(backendUrl, "https://", k)
    ensures WebSocketUrl(backendUrl, userId) == backendUrl + "/ws/" + userId
  {
  }
}

=== FILE: connections.dfy ===
/** The websocket `ConnectionManager` of `backend/server.py` as a state
    machine over immutable values.

    `active_connections` becomes the set of user ids that hold a socket;
    `couple_connections`, a `defaultdict(list)` iterated in insertion order,
    becomes an association list from couple id to the users connected for
    that couple. The database lookup of a user's `couple_id` is the
    parameter `coupleOf`; the outcome of each socket send is the set
    `failing` of partners whose send raises. */
module Connections {
  import opened Wrappers
  import opened Ids

  type CoupleLists = seq<(CoupleId, seq<UserId>)>

  datatype Registry = Registry(active: set<UserId>, lists: CoupleLists)

  /** What `db.users.find_one({"id": u})` tells about `u`'s couple: `None`
      for an unknown or unpaired user. */
  type CoupleLookup = UserId -> Option<CoupleId>

  /** The manager as constructed: no sockets and no couple lists. */
  const Initial: Registry := Registry({}, [])

  predicate NoDups<T(==)>(s: seq<T>)
  {
    forall i, j :: 0 <= i < j < |s| ==> s[i] != s[j]
  }

  predicate KeysUnique(ls: CoupleLists)
  {
    forall i, j :: 0 <= i < j < |ls| ==> ls[i].0 != ls[j].0
  }

  /** The position of `c`'s entry, if the dictionary has one. */
  function FindKey(ls: CoupleLists, c: CoupleId): (r: Option<nat>)
    ensures r.Some? ==> r.value < |ls| && ls[r.value].0 == c
    ensures r.Some? ==> forall i :: 0 <= i < r.value ==> ls[i].0 != c
    ensures r.None? ==> forall i :: 0 <= i < |ls| ==> ls[i].0 != c
  {
    if |ls| == 0 then None
    else if ls[0].0 == c then Some(0)
    else match FindKey(ls[1..], c)
      case None => None
      case Some(i) => Some(i + 1)
  }

  /** `couple_connections[c]`: the users listed for `c`, empty when the
      dictionary has no entry (the default of the `defaultdict`). */
  function Members(ls: CoupleLists, c: CoupleId): seq<UserId>
  {
    match FindKey(ls, c)
    case None => []
    case Some(i) => ls[i].1
  }

  /** The position of the first list, in iteration order, that holds `u`. */
  function FirstContaining(ls: CoupleLists, u: UserId): (r: Option<nat>)
    ensures r.Some? ==> r.value < |ls| && u in ls[r.value].1
    ensures r.Some? ==> forall i :: 0 <= i < r.value ==> u !in ls[i].1
    ensures r.None? ==> forall i :: 0 <= i < |ls| ==> u !in ls[i].1
  {
    if |ls| == 0 then None
    else if u in ls[0].1 then Some(0)
    else match FirstContaining(ls[1..], u)
      case None => None
      case Some(i) => Some(i + 1)
  }

  /** Python's `list.remove(x)`: drops the first occurrence of `x`. */
  function RemoveFirst(s: seq<UserId>, x: UserId): (r: seq<UserId>)
    ensures |r| == if x in s then |s| - 1 else |s|
    ensures forall y :: y != x ==> (y in r <==> y in s)
    ensures forall y :: y in r ==> y in s
    ensures x !in s ==> r == s
    ensures multiset(r) == multiset(s) - multiset{x}
  {
    if |s| == 0 then []
    else if s[0] == x then
      assert s == [x] + s[1..];
      s[1..]
    else
      assert s == [s[0]] + s[1..];
      [s[0]] + RemoveFirst(s[1..], x)
  }

  /** `RemoveFirst` is `list.remove`: it cuts out exactly the first
      occurrence, at `k`, and keeps the rest in order. */
  lemma {:induction false} RemoveFirstIsListRemove(s: seq<UserId>, x: UserId, k: nat)
    requires k < |s| && s[k] == x && x !in s[..k]
    ensures RemoveFirst(s, x) == s[..k] + s[k + 1..]
  {
    if k == 0 {
      assert s[..0] + s[1..] == s[1..];
    } else {
      assert s[0] in s[..k];
      PrefixTail(s, x, k);
      RemoveFirstIsListRemove(s[1..], x, k - 1);
      CutAtTail(s, k);
    }
  }

  lemma PrefixTail(s: seq<UserId>, x: UserId, k: nat)
    requires 0 < k < |s| && x !in s[..k]
    ensures s[1..][k - 1] == s[k] && x !in s[1..][..k - 1]
  {
    assert s[1..][..k - 1] == s[1..k];
  }

  /** Cutting `s[k]` out of `s` is keeping `s[0]` and cutting position
      `k - 1` out of the tail. */
  lemma CutAtTail(s: seq<UserId>, k: nat)
    requires 0 < k < |s|
    ensures s[..k] + s[k + 1..] == [s[0]] + (s[1..][..k - 1] + s[1..][k..])
  {
    assert s[1..][..k - 1] == s[1..k];
    assert s[1..][k..] == s[k + 1..];
    assert s[..k] == [s[0]] + s[1..k];
  }

  /** Removing from a duplicate-free list leaves no copy behind. */
  lemma {:induction false} RemoveFirstNoDups(s: seq<UserId>, x: UserId)
    requires NoDups(s)
    ensures NoDups(RemoveFirst(s, x)) && x !in RemoveFirst(s, x)
  {
    if |s| > 0 {
      assert s[0] !in s[1..];
      if s[0] != x {
        RemoveFirstNoDups(s[1..], x);
      }
    }
  }

  /** Lists with the same keys in the same order find the same entries. */
  lemma SameKeysSameFind(ls: CoupleLists, r: CoupleLists, d: CoupleId)
    requires |ls| == |r|
    requires forall i :: 0 <= i < |ls| ==> r[i].0 == ls[i].0
    ensures FindKey(r, d) == FindKey(ls, d)
  {
  }

  /** An entry appended at the end is found only when no earlier one is. */
  lemma FindKeyAppend(ls: CoupleLists, e: (CoupleId, seq<UserId>), d: CoupleId)
    ensures FindKey(ls + [e], d) ==
      if FindKey(ls, d).Some? then FindKey(ls, d)
      else if e.0 == d then Some(|ls|)
      else None
  {
    if |ls| > 0 {
      assert (ls + [e])[1..] == ls[1..] + [e];
      FindKeyAppend(ls[1..], e, d);
    }
  }

  /** `couple_connections[c].append(u)` guarded by `u not in ...`; a missing
      entry is created at the end of the iteration order. */
  function AddMember(ls: CoupleLists, c: CoupleId, u: UserId): (r: CoupleLists)
    ensures Members(r, c) == if u in Members(ls, c) then Members(ls, c) else Members(ls, c) + [u]
    ensures forall d :: d != c ==> Members(r, d) == Members(ls, d)
    ensures forall d :: FindKey(ls, d).Some? ==> FindKey(r, d) == FindKey(ls, d)
    ensures forall i :: 0 <= i < |ls| && ls[i].0 != c ==> i < |r| && r[i] == ls[i]
    ensures KeysUnique(ls) ==> KeysUnique(r)
  {
    match FindKey(ls, c)
    case None =>
      var r := ls + [(c, [u])];
      forall d ensures FindKey(r, d) == if d == c then Some(|ls|) else FindKey(ls, d) {
        FindKeyAppend(ls, (c, [u]), d);
      }
      assert KeysUnique(ls) ==> KeysUnique(r);
      r
    case Some(i) =>
      if u in ls[i].1 then ls
      else
        var r := ls[i := (c, ls[i].1 + [u])];
        forall d ensures FindKey(r, d) == FindKey(ls, d) {
          SameKeysSameFind(ls, r, d);
        }
        r
  }

  /** `connect`: the user becomes active; a paired user is appended to their
      couple's list unless already in it. */
  function Connect(reg: Registry, u: UserId, coupleOf: CoupleLookup): (r: Registry)
    ensures r.active == reg.active + {u}
    ensures coupleOf(u).None? ==> r.lists == reg.lists
    ensures coupleOf(u).Some? ==>
      var c := coupleOf(u).value;
      && u in Members(r.lists, c)
      && Members(r.lists, c) == (if u in Members(reg.lists, c) then Members(reg.lists, c) else Members(reg.lists, c) + [u])
      && |Members(r.lists, c)| <= |Members(reg.lists, c)| + 1
      && (forall x :: x in Members(r.lists, c) <==> x in Members(reg.lists, c) || x == u)
      && forall d :: d != c ==> Members(r.lists, d) == Members(reg.lists, d)
  {
    match coupleOf(u)
    case None => Registry(reg.active + {u}, reg.lists)
    case Some(c) => Registry(reg.active + {u}, AddMember(reg.lists, c, u))
  }

  /** `after` is `before` with some users taken out of lists: the same
      couples in the same order, no list gains anyone, and only users in
      `gone` may leave a list. */
  predicate ListsShrink(before: CoupleLists, after: CoupleLists, gone: set<UserId>)
  {
    && |after| == |before|
    && (forall i :: 0 <= i < |before| ==> after[i].0 == before[i].0)
    && (forall i, y :: 0 <= i < |before| && y in after[i].1 ==> y in before[i].1)
    && (forall i, y :: 0 <= i < |before| && y in before[i].1 && y !in gone ==> y in after[i].1)
  }

  lemma ListsShrinkTrans(a: CoupleLists, b: CoupleLists, c: CoupleLists, g1: set<UserId>, g2: set<UserId>, g: set<UserId>)
    requires ListsShrink(a, b, g1) && ListsShrink(b, c, g2)
    requires g1 + g2 <= g
    ensures ListsShrink(a, c, g)
  {
  }

  /** `disconnect`: the user loses their socket and is removed from the first
      couple list that contains them; the loop stops there. */
  function Disconnect(reg: Registry, u: UserId): (r: Registry)
    ensures r.active == reg.active - {u}
    ensures ListsShrink(reg.lists, r.lists, {u})
    ensures FirstContaining(reg.lists, u).None? ==> r.lists == reg.lists
    ensures FirstContaining(reg.lists, u).Some? ==>
      var k := FirstContaining(reg.lists, u).value;
      && r.lists[k].1 == RemoveFirst(reg.lists[k].1, u)
      && forall i :: 0 <= i < |reg.lists| && i != k ==> r.lists[i] == reg.lists[i]
  {
    match FirstContaining(reg.lists, u)
    case None => Registry(reg.active - {u}, reg.lists)
    case Some(k) =>
      Registry(reg.active - {u}, reg.lists[k := (reg.lists[k].0, RemoveFirst(reg.lists[k].1, u))])
  }

  /** Disconnecting a user that is neither active nor listed changes nothing. */
  lemma DisconnectUnknownIsNoOp(reg: Registry, u: UserId)
    requires u !in reg.active
    requires forall i :: 0 <= i < |reg.lists| ==> u !in reg.lists[i].1
    ensures Disconnect(reg, u) == reg
  {
  }

  /** The outcome of `send_to_partner`: who received the message, in order,
      and the registry after the failed partners were disconnected. */
  datatype Sent = Sent(delivered: seq<UserId>, reg: Registry)

  /** The comprehension `[uid for uid in ... if uid != user_id]`. */
  function Without(s: seq<UserId>, x: UserId): (r: seq<UserId>)
    ensures forall y :: y in r <==> y in s && y != x
    ensures |r| <= |s|
    ensures NoDups(s) ==> NoDups(r)
  {
    if |s| == 0 then []
    else if s[0] == x then Without(s[1..], x)
    else
      var rest := Without(s[1..], x);
      NoDupsCons(s, rest);
      [s[0]] + rest
  }

  /** Putting `s[0]` in front of a duplicate-free list drawn from the rest of
      a duplicate-free `s` keeps it duplicate-free. */
  lemma NoDupsCons(s: seq<UserId>, rest: seq<UserId>)
    requires |s| > 0
    requires forall y :: y in rest ==> y in s[1..]
    ensures NoDups(s) && NoDups(rest) ==> NoDups([s[0]] + rest)
  {
    if NoDups(s) && NoDups(rest) {
      var r := [s[0]] + rest;
      forall i, j | 0 <= i < j < |r| ensures r[i] != r[j] {
        if i == 0 {
          assert r[j] == rest[j - 1] && r[j] in rest;
        } else {
          assert r[i] == rest[i - 1] && r[j] == rest[j - 1];
        }
      }
    }
  }

  /** The loop over `partner_ids`: an active partner either receives the
      message or, when its send fails, is disconnected; an inactive one is
      skipped. */
  function Deliver(reg: Registry, partners: seq<UserId>, failing: set<UserId>): (r: Sent)
    ensures forall x :: x in r.delivered <==> x in partners && x in reg.active && x !in failing
    ensures r.reg.active == reg.active - (set x | x in partners && x in failing)
    ensures ListsShrink(reg.lists, r.reg.lists, set x | x in partners && x in failing)
    ensures |r.delivered| <= |partners|
    ensures NoDups(partners) ==> NoDups(r.delivered)
    decreases |partners|
  {
    if |partners| == 0 then Sent([], reg)
    else
      var p := partners[0];
      if p !in reg.active then
        var r := Deliver(reg, partners[1..], failing);
        ListsShrinkTrans(reg.lists, reg.lists, r.reg.lists, {}, set x | x in partners[1..] && x in failing,
                         set x | x in partners && x in failing);
        r
      else if p in failing then
        var d := Disconnect(reg, p);
        var r := Deliver(d, partners[1..], failing);
        ListsShrinkTrans(reg.lists, d.lists, r.reg.lists, {p}, set x | x in partners[1..] && x in failing,
                         set x | x in partners && x in failing);
        r
      else
        var rest := Deliver(reg, partners[1..], failing);
        ListsShrinkTrans(reg.lists, reg.lists, rest.reg.lists, {}, set x | x in partners[1..] && x in failing,
                         set x | x in partners && x in failing);
        NoDupsCons(partners, rest.delivered);
        Sent([p] + rest.delivered, rest.reg)
  }

  /** `send_to_partner`: an unpaired (or unknown) sender reaches nobody;
      otherwise every other user in the sender's couple list that is active
      receives the message, except those whose send fails, who are
      disconnected. */
  function SendToPartner(reg: Registry, sender: UserId, coupleOf: CoupleLookup,
                         failing: set<UserId>): (r: Sent)
    ensures sender !in r.delivered
    ensures coupleOf(sender).None? ==> r.delivered == [] && r.reg == reg
    ensures coupleOf(sender).Some? ==>
      var listed := Members(reg.lists, coupleOf(sender).value);
      && (forall x :: x in r.delivered <==>
            x in listed && x != sender && x in reg.active && x !in failing)
      && r.reg.active == reg.active - (set x | x in listed && x != sender && x in failing)
      && ListsShrink(reg.lists, r.reg.lists, set x | x in listed && x != sender && x in failing)
      && |r.delivered| <= |listed|
      && (NoDups(listed) ==> NoDups(r.delivered))
  {
    match coupleOf(sender)
    case None => Sent([], reg)
    case Some(c) =>
      var partners := Without(Members(reg.lists, c), sender);
      var r := Deliver(reg, partners, failing);
      assert (set x | x in partners && x in failing)
          == (set x | x in Members(reg.lists, c) && x != sender && x in failing);
      r
  }

  /** The registry invariant the three operations keep: one entry per couple,
      no user twice in a list, and every listed user is active and belongs
      to the couple of the list. */
  predicate Wf(reg: Registry, coupleOf: CoupleLookup)
  {
    && KeysUnique(reg.lists)
    && (forall i :: 0 <= i < |reg.lists| ==> NoDups(reg.lists[i].1))
    && (forall i, u :: 0 <= i < |reg.lists| && u in reg.lists[i].1 ==>
          coupleOf(u) == Some(reg.lists[i].0) && u in reg.active)
  }

  lemma InitialWf(coupleOf: CoupleLookup)
    ensures Wf(Initial, coupleOf)
  {
  }

  /** Under the invariant a user sits in at most one list, so stopping at the
      first list that contains them loses nothing. */
  lemma {:induction false} AtMostOneList(reg: Registry, coupleOf: CoupleLookup, u: UserId, i: nat, j: nat)
    requires Wf(reg, coupleOf)
    requires i < |reg.lists| && j < |reg.lists|
    requires u in reg.lists[i].1 && u in reg.lists[j].1
    ensures i == j
  {
    assert coupleOf(u) == Some(reg.lists[i].0);
    assert coupleOf(u) == Some(reg.lists[j].0);
  }

  /** A new entry for a couple without one keeps the invariant. */
  lemma AppendEntryWf(reg: Registry, c: CoupleId, u: UserId, coupleOf: CoupleLookup)
    requires Wf(reg, coupleOf)
    requires coupleOf(u) == Some(c)
    requires forall i :: 0 <= i < |reg.lists| ==> reg.lists[i].0 != c
    ensures Wf(Registry(reg.active + {u}, reg.lists + [(c, [u])]), coupleOf)
  {
    var ls := reg.lists + [(c, [u])];
    forall i | 0 <= i < |reg.lists| ensures ls[i] == reg.lists[i] {
    }
  }

  /** Appending a new member to a couple's existing list keeps the invariant. */
  lemma ExtendEntryWf(reg: Registry, k: nat, u: UserId, coupleOf: CoupleLookup)
    requires Wf(reg, coupleOf)
    requires k < |reg.lists|
    requires coupleOf(u) == Some(reg.lists[k].0)
    requires u !in reg.lists[k].1
    ensures Wf(Registry(reg.active + {u}, reg.lists[k := (reg.lists[k].0, reg.lists[k].1 + [u])]), coupleOf)
  {
    var ls := reg.lists[k := (reg.lists[k].0, reg.lists[k].1 + [u])];
    forall i | 0 <= i < |reg.lists| && i != k ensures ls[i] == reg.lists[i] {
    }
    assert NoDups(ls[k].1);
  }

  lemma {:induction false} ConnectPreservesWf(reg: Registry, u: UserId, coupleOf: CoupleLookup)
    requires Wf(reg, coupleOf)
    ensures Wf(Connect(reg, u, coupleOf), coupleOf)
  {
    if coupleOf(u).Some? {
      var c := coupleOf(u).value;
      match FindKey(reg.lists, c)
      case None =>
        AppendEntryWf(reg, c, u, coupleOf);
      case Some(k) =>
        if u !in reg.lists[k].1 {
          ExtendEntryWf(reg, k, u, coupleOf);
        }
    }
  }

  /** Under the invariant, `disconnect` removes the user from every list, not
      only the first, and keeps the invariant. */
  lemma {:induction false} DisconnectPreservesWf(reg: Registry, u: UserId, coupleOf: CoupleLookup)
    requires Wf(reg, coupleOf)
    ensures Wf(Disconnect(reg, u), coupleOf)
    ensures forall i :: 0 <= i < |reg.lists| ==> u !in Disconnect(reg, u).lists[i].1
  {
    var r := Disconnect(reg, u);
    match FirstContaining(reg.lists, u)
    case None =>
    case Some(k) =>
      forall i | 0 <= i < |reg.lists| && i != k
        ensures u !in reg.lists[i].1
      {
        if u in reg.lists[i].1 {
          AtMostOneList(reg, coupleOf, u, i, k);
        }
      }
      RemoveFirstNoDups(reg.lists[k].1, u);
  }

  lemma {:induction false} DeliverPreservesWf(reg: Registry, partners: seq<UserId>,
                                              failing: set<UserId>, coupleOf: CoupleLookup)
    requires Wf(reg, coupleOf)
    ensures Wf(Deliver(reg, partners, failing).reg, coupleOf)
    decreases |partners|
  {
    if |partners| > 0 {
      var p := partners[0];
      if p !in reg.active {
        DeliverPreservesWf(reg, partners[1..], failing, coupleOf);
      } else if p in failing {
        DisconnectPreservesWf(reg, p, coupleOf);
        DeliverPreservesWf(Disconnect(reg, p), partners[1..], failing, coupleOf);
      } else {
        DeliverPreservesWf(reg, partners[1..], failing, coupleOf);
      }
    }
  }

  /** Under the invariant the loop takes every failing partner out of its
      couple list; with `Deliver`'s own contract, the lists lose exactly the
      failing partners. */
  lemma {:induction false} DeliverDisconnectsFailing(reg: Registry, partners: seq<UserId>,
                                                     failing: set<UserId>, coupleOf: CoupleLookup)
    requires Wf(reg, coupleOf)
    ensures forall i, y :: 0 <= i < |reg.lists| && y in reg.lists[i].1 && y in partners && y in failing ==>
              y !in Deliver(reg, partners, failing).reg.lists[i].1
    decreases |partners|
  {
    if |partners| > 0 {
      var p := partners[0];
      var r := Deliver(reg, partners, failing);
      if p !in reg.active {
        DeliverDisconnectsFailing(reg, partners[1..], failing, coupleOf);
        forall i, y | 0 <= i < |reg.lists| && y in reg.lists[i].1 && y in partners && y in failing
          ensures y !in r.reg.lists[i].1
        {
          assert y in reg.active;
          assert y in partners[1..];
        }
      } else if p in failing {
        var d := Disconnect(reg, p);
        DisconnectPreservesWf(reg, p, coupleOf);
        DeliverDisconnectsFailing(d, partners[1..], failing, coupleOf);
        forall i, y | 0 <= i < |reg.lists| && y in reg.lists[i].1 && y in partners && y in failing
          ensures y !in r.reg.lists[i].1
        {
          if y == p {
            assert p !in d.lists[i].1;
          } else {
            assert y in d.lists[i].1;
            assert y in partners[1..];
          }
        }
      } else {
        DeliverDisconnectsFailing(reg, partners[1..], failing, coupleOf);
        forall i, y | 0 <= i < |reg.lists| && y in reg.lists[i].1 && y in partners && y in failing
          ensures y !in r.reg.lists[i].1
        {
          assert y in partners[1..];
        }
      }
    }
  }

  /** Under the invariant a send takes every failing partner out of the
      couple's list and, by `SendToPartner`'s contract, nobody else. */
  lemma {:induction false} SendDisconnectsFailing(reg: Registry, sender: UserId, coupleOf: CoupleLookup,
                                                  failing: set<UserId>)
    requires Wf(reg, coupleOf)
    requires coupleOf(sender).Some?
    ensures var listed := Members(reg.lists, coupleOf(sender).value);
            forall i, y :: 0 <= i < |reg.lists| && y in reg.lists[i].1 && y in listed && y != sender && y in failing ==>
              y !in SendToPartner(reg, sender, coupleOf, failing).reg.lists[i].1
  {
    var c := coupleOf(sender).value;
    DeliverDisconnectsFailing(reg, Without(Members(reg.lists, c), sender), failing, coupleOf);
  }

  /** Under the invariant a couple list holds nobody twice, so a send
      delivers to each partner at most once. */
  lemma SendDeliversOnce(reg: Registry, sender: UserId, coupleOf: CoupleLookup, failing: set<UserId>)
    requires Wf(reg, coupleOf)
    ensures NoDups(SendToPartner(reg, sender, coupleOf, failing).delivered)
  {
  }

  /** A send keeps the invariant, and under it every recipient belongs to the
      sender's couple: a message never leaves the couple. */
  lemma {:induction false} SendStaysInCouple(reg: Registry, sender: UserId, coupleOf: CoupleLookup,
                                             failing: set<UserId>)
    requires Wf(reg, coupleOf)
    ensures Wf(SendToPartner(reg, sender, coupleOf, failing).reg, coupleOf)
    ensures forall x :: x in SendToPartner(reg, sender, coupleOf, failing).delivered ==>
              x != sender && coupleOf(x) == coupleOf(sender)
  {
    match coupleOf(sender)
    case None =>
    case Some(c) =>
      var partners := Without(Members(reg.lists, c), sender);
      DeliverPreservesWf(reg, partners, failing, coupleOf);
      forall x | x in Members(reg.lists, c)
        ensures coupleOf(x) == Some(c)
      {
        var k := FindKey(reg.lists, c).value;
        assert x in reg.lists[k].1;
      }
  }
}

=== FILE: decimal.dfy ===
/** Decimal rendering of non-negative integers, as JavaScript's template
    literals print a whole number. */
module Decimal {
  import opened Ascii

  function DigitChar(d: nat): (c: char)
    requires d < 10
    ensures IsDigit(c)
  {
    ('0' as int + d) as char
  }

  function DigitValue(c: char): nat
    requires IsDigit(c)
  {
    c as int - '0' as int
  }

  /** The shortest decimal numeral for `n`: digits only, no leading zero. */
  function NatToString(n: nat): (s: string)
    ensures |s| > 0 && AllDigits(s)
    ensures s[0] == '0' ==> n == 0
    decreases n
  {
    if n < 10 then [DigitChar(n)]
    else NatToString(n / 10) + [DigitChar(n % 10)]
  }

  function ParseDigits(s: string): nat
    requires AllDigits(s)
  {
    if |s| == 0 then 0
    else ParseDigits(s[..|s| - 1]) * 10 + DigitValue(s[|s| - 1])
  }

  /** Reading back a rendered number gives the number. */
  lemma {:induction false} ParseNatToString(n: nat)
    ensures ParseDigits(NatToString(n)) == n
    decreases n
  {
    var s := NatToString(n);
    if n >= 10 {
      ParseNatToString(n / 10);
      assert s[..|s| - 1] == NatToString(n / 10);
    }
  }
}

=== FILE: flows.dfy ===
/** Properties that cross the components: what the server sends and how the
    client reacts, and how pairing, the connection registry and the client
    views fit together. */
module Flows {
  import opened Wrappers
  import opened Ids
  import opened Ascii
  import Pairing
  import Connections
  import Tasks
  import Client

  /** The notification kinds `backend/server.py` sends. */
  datatype EventKind = MoodUpdate | NewTask | TaskCompleted

  /** The `type` field of the pushed JSON message. */
  function WireType(k: EventKind): string
  {
    match k
    case MoodUpdate => "mood_update"
    case NewTask => "new_task"
    case TaskCompleted => "task_completed"
  }

  /** Every notification the server sends makes the dashboard reload the list
      it changed: moods for a mood update, tasks for the two task events. */
  lemma ServerEventsRefreshTheirList(k: EventKind)
    ensures Client.Dispatch(WireType(k)) == (if k == MoodUpdate then Client.RefetchMoods else Client.RefetchTasks)
  {
  }

  /** The badge over the five stored statuses: green only for `completed`,
      red only for `expired`, yellow for `pending`, `approved` and `rejected`. */
  lemma BadgeForStatus(s: Tasks.Status)
    ensures Client.Badge(Tasks.StatusName(s)) == Client.Green <==> s == Tasks.Completed
    ensures Client.Badge(Tasks.StatusName(s)) == Client.Red <==> s == Tasks.Expired
    ensures Client.Badge(Tasks.StatusName(s)) == Client.Yellow <==>
              s == Tasks.Pending || s == Tasks.Approved || s == Tasks.Rejected
  {
  }

  /** The registry's view of the users table: `find_one({"id": u})["couple_id"]`. */
  function CoupleOfTable(users: Pairing.Users): Connections.CoupleLookup
  {
    u => if u in users then users[u] else None
  }

  /** Pairing two unpaired users does not disturb the registry invariant:
      nobody listed for a couple was one of the two. */
  lemma {:induction false} LinkPreservesRegistry(reg: Connections.Registry, users: Pairing.Users,
                                                 requester: UserId, code: string, pick: Option<UserId>,
                                                 newId: CoupleId, now: int)
    requires Connections.Wf(reg, CoupleOfTable(users))
    requires Pairing.IsFindOne(users, requester, code, pick)
    requires Pairing.Link(users, requester, code, pick, newId, now).Success?
    ensures Connections.Wf(reg, CoupleOfTable(Pairing.Link(users, requester, code, pick, newId, now).value.users))
  {
    var l := Pairing.Link(users, requester, code, pick, newId, now).value;
    var before, after := CoupleOfTable(users), CoupleOfTable(l.users);
    forall i, u | 0 <= i < |reg.lists| && u in reg.lists[i].1
      ensures after(u) == Some(reg.lists[i].0)
    {
      assert before(u) == Some(reg.lists[i].0);
      assert u != requester && u != l.couple.user2;
    }
  }

  /** With a consistent users table and registry, a notification from a
      paired user reaches nobody but that user's partner, and the partner
      at most once. */
  lemma {:induction false} NotificationReachesOnlyPartner(reg: Connections.Registry, users: Pairing.Users,
                                                          couples: map<CoupleId, Pairing.Couple>,
                                                          sender: UserId, failing: set<UserId>)
    requires Pairing.Consistent(users, couples)
    requires Connections.Wf(reg, CoupleOfTable(users))
    requires sender in users && users[sender].Some?
    ensures var couple := couples[users[sender].value];
            var partner := if couple.user1 == sender then couple.user2 else couple.user1;
            forall x :: x in Connections.SendToPartner(reg, sender, CoupleOfTable(users), failing).delivered ==>
              x == partner
    ensures |Connections.SendToPartner(reg, sender, CoupleOfTable(users), failing).delivered| <= 1
  {
    var c := users[sender].value;
    Connections.SendStaysInCouple(reg, sender, CoupleOfTable(users), failing);
    forall x | x in Connections.SendToPartner(reg, sender, CoupleOfTable(users), failing).delivered
      ensures x == couples[c].user1 || x == couples[c].user2
    {
      assert CoupleOfTable(users)(x) == Some(c);
      Pairing.CoupleHasTwoMembers(users, couples, c, x);
    }
    Pairing.CoupleHasTwoMembers(users, couples, c, sender);
    Connections.SendDeliversOnce(reg, sender, CoupleOfTable(users), failing);
    OnlyOneDistinct(Connections.SendToPartner(reg, sender, CoupleOfTable(users), failing).delivered,
                    if couples[c].user1 == sender then couples[c].user2 else couples[c].user1);
  }

  /** A list without repeats whose every element is `p` has at most one element. */
  lemma OnlyOneDistinct(d: seq<UserId>, p: UserId)
    requires Connections.NoDups(d)
    requires forall x :: x in d ==> x == p
    ensures |d| <= 1
  {
    FirstTwoDiffer(d);
  }

  lemma FirstTwoDiffer(d: seq<UserId>)
    requires Connections.NoDups(d)
    ensures |d| > 1 ==> d[0] != d[1] && d[0] in d && d[1] in d
  {
  }

  /** The user object a login response gives the client for `u`: the
      stored document, whose `couple_id` is `null` while unpaired. */
  function ClientView(users: Pairing.Users, u: UserId): Client.ClientUser
    requires u in users
  {
    Client.ClientUser(u, match users[u] case None => None case Some(c) => Some(c))
  }

  /** Both members see the pairing screen when they log in before the link,
      and the dashboard when they log in again after it. (The page reload
      that follows a link drops the user object, so the requester first
      lands on the login form; the partner is not told at all.) */
  lemma RouteAfterLink(users: Pairing.Users, requester: UserId, code: string, pick: Option<UserId>,
                       newId: CoupleId, now: int)
    requires Pairing.IsFindOne(users, requester, code, pick)
    requires Pairing.Link(users, requester, code, pick, newId, now).Success?
    ensures var l := Pairing.Link(users, requester, code, pick, newId, now).value;
            && Client.Route(false, Some(ClientView(users, requester))) == Client.PairingScreen
            && Client.Route(false, Some(ClientView(users, l.couple.user2))) == Client.PairingScreen
            && Client.Route(false, Some(ClientView(l.users, requester))) == Client.DashboardScreen
            && Client.Route(false, Some(ClientView(l.users, l.couple.user2))) == Client.DashboardScreen
  {
  }

  /** What the client's input lets a user type can only link with a partner
      whose code is all digits; ids whose last six characters hold a hex
      letter cannot be reached from the client. */
  lemma {:induction false} ClientReachesOnlyDigitCodes(users: Pairing.Users, requester: UserId, typed: string,
                                                       pick: Option<UserId>, newId: CoupleId, now: int)
    requires Pairing.IsFindOne(users, requester, Client.SanitizeCode(typed), pick)
    requires Pairing.Link(users, requester, Client.SanitizeCode(typed), pick, newId, now).Success?
    ensures AllDigits(Pairing.CodeOf(Pairing.Link(users, requester, Client.SanitizeCode(typed), pick, newId, now).value.couple.user2))
  {
    var code := Client.SanitizeCode(typed);
    forall i | 0 <= i < |code| ensures Upper(code)[i] == code[i] {
      UpperCharFolds(code[i]);
    }
    assert Upper(code) == code;
  }
}

=== FILE: ids.dfy ===
/** Identifiers shared by the backend components. */
module Ids {
  import opened Wrappers


  /** User ids are `str(uuid4())` in the backend, but the websocket path and
      the pairing query accept any string, so the model allows any string. */
  type UserId = string

  /** Couple ids are generated uuid strings and never empty, so Python's
      truthiness test `if user.get("couple_id")` coincides with `Some?`. */
  type CoupleId = s: string | |s| > 0 witness "c"

  type TaskId = string
  type MoodId = string

  /** The fields of the authenticated user document that the mood and task
      handlers read. */
  datatype Caller = Caller(id: UserId, coupleId: Option<CoupleId>)
}

=== FILE: moods.dfy ===
/** Mood signals of `backend/server.py`: `create_mood` and the visibility
    filter of `get_moods`. Time is an integer count of milliseconds. */
module Moods {
  import opened Wrappers
  import opened Ids
  import opened Shared
  import Recent

  /** `get_moods` returns at most this many moods. */
  const MoodQueryLimit: nat := 10

  datatype Mood = Mood(id: MoodId, coupleId: CoupleId, userId: UserId, moodType: string,
                       intensity: int, expiresAt: int, createdAt: int)

  datatype MoodRequest = MoodRequest(moodType: string, intensity: int, durationMinutes: int)

  /** The mood types for which `create_mood` asks for a task suggestion. */
  const SuggestionMoods: seq<string> := ["feeling_spicy", "horny", "teasing"]

  datatype MoodError = NotLinked   // 400 "Must be linked with a partner to share moods"

  datatype MoodCreated = MoodCreated(mood: Mood, suggestionRequested: bool)

  /** `POST /moods`: an unpaired caller is refused; otherwise the mood is
      stamped with the caller's couple and expires `durationMinutes` after
      `now`. Neither intensity nor duration is validated. */
  function CreateMood(caller: Caller, req: MoodRequest, now: int, newId: MoodId): (r: Result<MoodCreated, MoodError>)
    ensures r.Failure? <==> caller.coupleId.None?
    ensures r.Success? ==>
      var m := r.value.mood;
      && m.coupleId == caller.coupleId.value
      && m.userId == caller.id
      && m.moodType == req.moodType && m.intensity == req.intensity
      && m.createdAt == now
      && m.expiresAt - m.createdAt == req.durationMinutes * MillisPerMinute
    ensures r.Success? ==>
      (r.value.suggestionRequested <==>
        req.moodType == "feeling_spicy" || req.moodType == "horny" || req.moodType == "teasing")
  {
    match caller.coupleId
    case None => Failure(NotLinked)
    case Some(c) =>
      Success(MoodCreated(
        Mood(newId, c, caller.id, req.moodType, req.intensity,
             now + req.durationMinutes * MillisPerMinute, now),
        req.moodType in SuggestionMoods))
  }

  /** The query's `expires_at > now`: a mood is gone at its expiry instant. */
  predicate Visible(m: Mood, now: int)
  {
    m.expiresAt > now
  }

  predicate Shown(c: CoupleId, now: int, m: Mood)
  {
    m.coupleId == c && Visible(m, now)
  }

  function CreatedAt(m: Mood): int
  {
    m.createdAt
  }

  /** `GET /moods`: an unpaired caller sees nothing; otherwise the ten newest
      unexpired moods of the caller's couple, newest first. */
  function GetMoods(caller: Caller, moods: seq<Mood>, now: int): (r: seq<Mood>)
    ensures caller.coupleId.None? ==> r == []
    ensures |r| <= MoodQueryLimit
    ensures multiset(r) <= multiset(moods)
    ensures forall m :: m in r ==> m in moods && m.coupleId == caller.coupleId.value && now < m.expiresAt
    ensures Recent.NewestFirst(r, CreatedAt)
    ensures caller.coupleId.Some? ==>
      forall m :: m in moods && Shown(caller.coupleId.value, now, m) && m !in r ==>
        |r| == MoodQueryLimit && forall y :: y in r ==> y.createdAt >= m.createdAt
  {
    match caller.coupleId
    case None => []
    case Some(c) => Recent.Query(moods, m => Shown(c, now, m), CreatedAt, MoodQueryLimit)
  }

  /** A mood is listed from its creation until, but not at, its expiry
      instant: `duration` minutes after `now` it is already hidden. */
  lemma {:induction false} MoodVisibleUntilExpiry(caller: Caller, req: MoodRequest, now: int,
                                                  newId: MoodId, t: int)
    requires caller.coupleId.Some?
    ensures var m := CreateMood(caller, req, now, newId).value.mood;
            GetMoods(caller, [m], t) == if t < now + req.durationMinutes * MillisPerMinute then [m] else []
  {
    var m := CreateMood(caller, req, now, newId).value.mood;
    var r := GetMoods(caller, [m], t);
    if t < now + req.durationMinutes * MillisPerMinute {
      assert Shown(caller.coupleId.value, t, m);
      assert m in r;
      assert r == [m];
    } else {
      assert !Shown(caller.coupleId.value, t, m);
      assert forall y :: y in r ==> y == m;
      assert r == [];
    }
  }
}

=== FILE: notify.dfy ===
/** The notifications `create_mood` and `create_task` push to the partner,
    as the Python values handed to `send_json`. Starlette's `send_json`
    encodes its argument with `json.dumps`, which has no encoding for a
    `datetime`; the exception it raises is caught by the bare `except` of
    `send_to_partner` like that of a broken socket. */
module Notify {
  import opened Wrappers
  import opened Ids
  import Connections
  import Moods
  import Tasks

  /** The values a message dictionary holds. `Instant` is a `datetime`,
      kept as the model's millisecond count. */
  datatype Value =
    | Null
    | Int(i: int)
    | Str(s: string)
    | Instant(ms: int)
    | Object(fields: seq<(string, Value)>)

  /** `json.dumps` accepts the value: no `datetime` anywhere inside it. */
  predicate Dumpable(v: Value)
  {
    match v
    case Instant(_) => false
    case Object(fields) => forall i :: 0 <= i < |fields| ==> Dumpable(fields[i].1)
    case _ => true
  }

  /** FastAPI's `jsonable_encoder`: every `datetime` becomes its ISO 8601
      text, here the abstract `iso`; everything else is kept. */
  function Encode(v: Value, iso: int -> string): (r: Value)
    ensures Dumpable(r)
    ensures Dumpable(v) ==> r == v
  {
    match v
    case Instant(ms) => Str(iso(ms))
    case Object(fields) =>
      var encoded := seq(|fields|, i requires 0 <= i < |fields| => (fields[i].0, Encode(fields[i].1, iso)));
      assert Dumpable(v) ==> encoded == fields;
      Object(encoded)
    case _ => v
  }

  function OptStr(o: Option<string>): Value
  {
    match o
    case None => Null
    case Some(s) => Str(s)
  }

  function OptInstant(o: Option<int>): Value
  {
    match o
    case None => Null
    case Some(ms) => Instant(ms)
  }

  /** `mood_obj.dict()`. */
  function MoodDict(m: Moods.Mood): Value
  {
    Object([("id", Str(m.id)), ("couple_id", Str(m.coupleId)), ("user_id", Str(m.userId)),
            ("mood_type", Str(m.moodType)), ("intensity", Int(m.intensity)),
            ("expires_at", Instant(m.expiresAt)), ("created_at", Instant(m.createdAt))])
  }

  /** `task_obj.dict()`. */
  function TaskDict(t: Tasks.Task): Value
  {
    Object([("id", Str(t.id)), ("couple_id", Str(t.coupleId)), ("creator_id", Str(t.creatorId)),
            ("receiver_id", Str(t.receiverId)), ("title", Str(t.title)),
            ("description", Str(t.description)), ("reward", OptStr(t.reward)),
            ("duration_minutes", Int(t.durationMinutes)), ("status", Str(Tasks.StatusName(t.status))),
            ("proof_text", OptStr(t.proofText)), ("proof_photo_base64", OptStr(t.proofPhoto)),
            ("created_at", Instant(t.createdAt)), ("expires_at", Instant(t.expiresAt)),
            ("completed_at", OptInstant(t.completedAt)), ("approved_at", OptInstant(t.approvedAt)),
            ("tokens_earned", Int(t.tokensEarned)), ("approval_message", OptStr(t.approvalMessage))])
  }

  /** The message `create_mood` sends. */
  function MoodMessage(m: Moods.Mood): Value
  {
    Object([("type", Str("mood_update")), ("mood", MoodDict(m))])
  }

  /** The message `create_task` sends. */
  function TaskMessage(t: Tasks.Task): Value
  {
    Object([("type", Str("new_task")), ("task", TaskDict(t))])
  }

  /** Everyone in some couple list. */
  function Listed(ls: Connections.CoupleLists): (r: set<UserId>)
    ensures forall i, x :: 0 <= i < |ls| && x in ls[i].1 ==> x in r
  {
    set i, x | 0 <= i < |ls| && x in ls[i].1 :: x
  }

  /** `send_to_partner(sender, message)`: a send to a partner raises when
      their socket is broken or when `json.dumps` refuses the message, and
      either way that partner is disconnected. */
  function Send(reg: Connections.Registry, sender: UserId, coupleOf: Connections.CoupleLookup,
                message: Value, broken: set<UserId>): (r: Connections.Sent)
    ensures Dumpable(message) ==> r == Connections.SendToPartner(reg, sender, coupleOf, broken)
    ensures !Dumpable(message) ==> r.delivered == []
  {
    var failing := if Dumpable(message) then broken else broken + Listed(reg.lists);
    MembersListed(reg.lists);
    var r := Connections.SendToPartner(reg, sender, coupleOf, failing);
    assert |r.delivered| > 0 ==> r.delivered[0] in r.delivered;
    r
  }

  /** Every member of a couple's list is listed. */
  lemma MembersListed(ls: Connections.CoupleLists)
    ensures forall c, x :: x in Connections.Members(ls, c) ==> x in Listed(ls)
  {
    forall c, x | x in Connections.Members(ls, c) ensures x in Listed(ls) {
      var k := Connections.FindKey(ls, c).value;
      assert x in ls[k].1;
    }
  }

  /** The dictionaries as built hold `created_at` and `expires_at` as
      `datetime` values, so neither message can be dumped. */
  lemma CreatedMessagesUndumpable(m: Moods.Mood, t: Tasks.Task)
    ensures !Dumpable(MoodMessage(m))
    ensures !Dumpable(TaskMessage(t))
  {
    assert !Dumpable(MoodMessage(m).fields[1].1) by {
      assert MoodDict(m).fields[5].1 == Instant(m.expiresAt);
    }
    assert !Dumpable(TaskMessage(t).fields[1].1) by {
      assert TaskDict(t).fields[11].1 == Instant(t.createdAt);
    }
  }

  /** As written, a mood or task notification reaches nobody: every listed
      partner of the sender loses their socket and leaves the couple's list,
      so the partner's dashboard is not refreshed by it, nor by later ones
      until they reconnect. */
  lemma {:induction false} NotificationAsWrittenReachesNobody(reg: Connections.Registry, sender: UserId,
                                                              coupleOf: Connections.CoupleLookup,
                                                              m: Moods.Mood, t: Tasks.Task, broken: set<UserId>)
    requires Connections.Wf(reg, coupleOf)
    requires coupleOf(sender).Some?
    ensures forall message :: message == MoodMessage(m) || message == TaskMessage(t) ==>
      var r := Send(reg, sender, coupleOf, message, broken);
      var listed := Connections.Members(reg.lists, coupleOf(sender).value);
      && r.delivered == []
      && (forall y :: y in listed && y != sender ==> y !in r.reg.active)
      && (forall i, y :: 0 <= i < |reg.lists| && y in listed && y != sender ==> y !in r.reg.lists[i].1)
  {
    CreatedMessagesUndumpable(m, t);
    var c := coupleOf(sender).value;
    var listed := Connections.Members(reg.lists, c);
    var failing := broken + Listed(reg.lists);
    MembersListed(reg.lists);
    Connections.SendDisconnectsFailing(reg, sender, coupleOf, failing);
  }

  /** The corrected send encodes the message first. */
  function SendEncoded(reg: Connections.Registry, sender: UserId, coupleOf: Connections.CoupleLookup,
                       message: Value, iso: int -> string, broken: set<UserId>): (r: Connections.Sent)
    ensures r == Connections.SendToPartner(reg, sender, coupleOf, broken)
  {
    Send(reg, sender, coupleOf, Encode(message, iso), broken)
  }

  /** With the message encoded, exactly the listed, connected partners whose
      socket works receive a mood or task notification, and nobody is
      disconnected but those with a broken socket. */
  lemma EncodedNotificationReachesPartner(reg: Connections.Registry, sender: UserId,
                                          coupleOf: Connections.CoupleLookup, message: Value,
                                          iso: int -> string, broken: set<UserId>)
    requires coupleOf(sender).Some?
    ensures var r := SendEncoded(reg, sender, coupleOf, message, iso, broken);
            var listed := Connections.Members(reg.lists, coupleOf(sender).value);
            && (forall x :: x in r.delivered <==> x in listed && x != sender && x in reg.active && x !in broken)
            && r.reg.active == reg.active - (set x | x in listed && x != sender && x in broken)
            && |r.delivered| <= |listed|
            && (Connections.NoDups(listed) ==> Connections.NoDups(r.delivered))
  {
  }
}

=== FILE: pairing.dfy ===
/** The pairing protocol of `backend/server.py`: a user's pairing code is
    derived from their id, and a second user links with them by typing it.

    The users collection is abstracted to the one field pairing reads and
    writes, each user's `couple_id`. */
module Pairing {
  import opened Wrappers
  import opened Ascii
  import opened Ids
  import opened Shared

  /** Every user's `couple_id`; `None` while unpaired. */
  type Users = map<UserId, Option<CoupleId>>

  /** The `Couple` document written by a successful link. */
  datatype Couple = Couple(id: CoupleId, user1: UserId, user2: UserId, pairingCode: string, createdAt: int)

  datatype PairingError =
    | Unauthorized      // 401, the authenticated user id has no user document
    | AlreadyLinked     // 400 "Already linked with a partner"
    | PartnerNotFound   // 404 "Partner not found with this code"

  /** Python's `id[-6:]`: the last six characters, or the whole id when shorter. */
  function LastSix(id: string): (r: string)
    ensures |r| == Min(CodeLength, |id|)
    ensures r == id[|id| - |r|..]
  {
    if |id| <= CodeLength then id else id[|id| - CodeLength..]
  }

  /** The code a user's id derives: `id[-6:].upper()`, the upper-cased
      characters of the id's tail. */
  function CodeOf(id: UserId): (r: string)
    ensures |r| == Min(CodeLength, |id|)
    ensures forall i :: 0 <= i < |r| ==> r[i] == UpperChar(id[|id| - |r| + i])
  {
    var tail := LastSix(id);
    TailIndex(id, tail);
    Upper(tail)
  }

  lemma TailIndex(id: string, tail: string)
    requires |tail| <= |id| && tail == id[|id| - |tail|..]
    ensures forall i :: 0 <= i < |tail| ==> tail[i] == id[|id| - |tail| + i]
  {
  }

  /** `GET /pairing/code`: the requester's code, refused once they are paired. */
  function GetPairingCode(users: Users, requester: UserId): (r: Result<string, PairingError>)
    ensures r == Failure(Unauthorized) <==> requester !in users
    ensures r == Failure(AlreadyLinked) <==> requester in users && users[requester].Some?
    ensures r == Success(CodeOf(requester)) <==> requester in users && users[requester].None?
  {
    if requester !in users then Failure(Unauthorized)
    else if users[requester].Some? then Failure(AlreadyLinked)
    else Success(CodeOf(requester))
  }

  datatype GeneratedCode = GeneratedCode(pairingCode: string, message: string)

  /** `POST /pairing/generate`: despite its name it generates nothing new;
      it answers with the same derived code and a fixed message. */
  function GeneratePairingCode(users: Users, requester: UserId): (r: Result<GeneratedCode, PairingError>)
    ensures r.Failure? <==> GetPairingCode(users, requester).Failure?
    ensures r.Failure? ==> r.error == GetPairingCode(users, requester).error
    ensures r.Success? ==>
      r.value.pairingCode == GetPairingCode(users, requester).value
      && r.value.message == "Pairing code generated"
  {
    if requester !in users then Failure(Unauthorized)
    else if users[requester].Some? then Failure(AlreadyLinked)
    else Success(GeneratedCode(CodeOf(requester), "Pairing code generated"))
  }

  /** The regex filter `.*{code.lower()}$` with option `i`, read as a
      case-insensitive suffix test. */
  predicate EndsWithIgnoringCase(id: string, code: string)
  {
    |code| <= |id| && Lower(id[|id| - |code|..]) == Lower(code)
  }

  /** A document the partner query of `link_with_partner` matches. */
  predicate Candidate(users: Users, requester: UserId, code: string, p: UserId)
  {
    p in users && p != requester && users[p].None? && EndsWithIgnoringCase(p, code)
  }

  /** What MongoDB's `find_one` promises: some matching document, or `None`
      only when no document matches. Which one it returns is not specified,
      so it is an input of the model. */
  predicate IsFindOne(users: Users, requester: UserId, code: string, pick: Option<UserId>)
  {
    && (pick.Some? ==> Candidate(users, requester, code, pick.value))
    && (pick.None? ==> forall p :: p in users ==> !Candidate(users, requester, code, p))
  }

  /** A partner the link can succeed with: another unpaired user whose
      derived code equals the typed code up to case. */
  predicate Eligible(users: Users, requester: UserId, code: string, p: UserId)
  {
    p in users && p != requester && users[p].None? && CodeOf(p) == Upper(code)
  }

  datatype Linked = Linked(users: Users, couple: Couple)

  /** `POST /pairing/link`. `pick` is the partner document `find_one`
      returned, `newId` the new couple's uuid and `now` the clock. */
  function Link(users: Users, requester: UserId, code: string, pick: Option<UserId>,
                newId: CoupleId, now: int): (r: Result<Linked, PairingError>)
    requires IsFindOne(users, requester, code, pick)
    ensures r == Failure(Unauthorized) <==> requester !in users
    ensures r == Failure(AlreadyLinked) <==> requester in users && users[requester].Some?
    ensures r.Success? ==>
      var p := r.value.couple.user2;
      && Eligible(users, requester, code, p)
      && r.value.couple == Couple(newId, requester, p, Upper(code), now)
      && r.value.users.Keys == users.Keys
      && r.value.users[requester] == Some(newId)
      && r.value.users[p] == Some(newId)
      && forall u :: u in users && u != requester && u != p ==> r.value.users[u] == users[u]
  {
    if requester !in users then Failure(Unauthorized)
    else if users[requester].Some? then Failure(AlreadyLinked)
    else if pick.None? then Failure(PartnerNotFound)
    else if CodeOf(pick.value) != Upper(code) then Failure(PartnerNotFound)
    else
      var p := pick.value;
      Success(Linked(users[requester := Some(newId)][p := Some(newId)],
                     Couple(newId, requester, p, Upper(code), now)))
  }

  /** Every eligible partner is also matched by the regex query. */
  lemma EligibleIsCandidate(users: Users, requester: UserId, code: string, p: UserId)
    requires Eligible(users, requester, code, p)
    ensures Candidate(users, requester, code, p)
  {
    var tail := LastSix(p);
    assert |tail| == |code|;
    assert tail == p[|p| - |code|..];
    FoldAgrees(tail, code);
  }

  /** With a six-character code the regex query matches exactly the eligible
      partners, so the double-check never rejects what `find_one` returns. */
  lemma CandidateIsEligible(users: Users, requester: UserId, code: string, p: UserId)
    requires |code| == CodeLength
    requires Candidate(users, requester, code, p)
    ensures Eligible(users, requester, code, p)
  {
    var tail := p[|p| - |code|..];
    assert LastSix(p) == tail;
    FoldAgrees(tail, code);
  }

  /** Linking succeeds exactly when some other unpaired user's id ends in
      the six-character code, compared without regard to case. */
  lemma {:induction false} LinkSucceedsIff(users: Users, requester: UserId, code: string,
                                            pick: Option<UserId>, newId: CoupleId, now: int)
    requires IsFindOne(users, requester, code, pick)
    requires requester in users && users[requester].None?
    requires |code| == CodeLength
    ensures Link(users, requester, code, pick, newId, now).Success?
            <==> exists p :: Eligible(users, requester, code, p)
  {
    if q :| Eligible(users, requester, code, q) {
      EligibleIsCandidate(users, requester, code, q);
      assert pick.Some?;
      CandidateIsEligible(users, requester, code, pick.value);
    }
  }

  /** Ids are uuids, longer than six characters; for such ids a code that is
      not six characters long never links. */
  predicate LongIds(users: Users)
  {
    forall u :: u in users ==> |u| >= CodeLength
  }

  lemma WrongLengthCodeNotFound(users: Users, requester: UserId, code: string,
                                pick: Option<UserId>, newId: CoupleId, now: int)
    requires IsFindOne(users, requester, code, pick)
    requires LongIds(users)
    requires requester in users && users[requester].None?
    requires |code| != CodeLength
    ensures Link(users, requester, code, pick, newId, now) == Failure(PartnerNotFound)
  {
    if pick.Some? {
      assert |CodeOf(pick.value)| == CodeLength;
      assert |Upper(code)| != CodeLength;
    }
  }

  /** Once linked, neither member can link again, and neither can be found
      by anyone else's code. */
  lemma {:induction false} LinkTwiceFails(users: Users, requester: UserId, code: string,
                                          pick: Option<UserId>, newId: CoupleId, now: int,
                                          code2: string, pick2: Option<UserId>, newId2: CoupleId, now2: int)
    requires IsFindOne(users, requester, code, pick)
    requires Link(users, requester, code, pick, newId, now).Success?
    requires IsFindOne(Link(users, requester, code, pick, newId, now).value.users, requester, code2, pick2)
    ensures Link(Link(users, requester, code, pick, newId, now).value.users,
                 requester, code2, pick2, newId2, now2) == Failure(AlreadyLinked)
  {
    var l := Link(users, requester, code, pick, newId, now).value;
    assert l.users[requester] == Some(newId);
  }

  lemma LinkedUsersNoLongerCandidates(users: Users, requester: UserId, code: string,
                                      pick: Option<UserId>, newId: CoupleId, now: int,
                                      other: UserId, code2: string)
    requires IsFindOne(users, requester, code, pick)
    requires Link(users, requester, code, pick, newId, now).Success?
    ensures !Candidate(Link(users, requester, code, pick, newId, now).value.users, other, code2, requester)
    ensures !Candidate(Link(users, requester, code, pick, newId, now).value.users, other, code2,
                       Link(users, requester, code, pick, newId, now).value.couple.user2)
  {
  }

  /** The scenario of a third user: once B has linked with A's code, C
      typing the same code is refused, provided A was the only unpaired user
      whose id ends in it. */
  lemma {:induction false} ThirdUserCannotReuseCode(users: Users, b: UserId, code: string,
                                                     pick: Option<UserId>, newId: CoupleId, now: int,
                                                     c: UserId, pick2: Option<UserId>, newId2: CoupleId, now2: int)
    requires |code| == CodeLength
    requires IsFindOne(users, b, code, pick)
    requires Link(users, b, code, pick, newId, now).Success?
    requires forall p :: Eligible(users, b, code, p) ==> p == Link(users, b, code, pick, newId, now).value.couple.user2
    requires c in users && users[c].None? && c != b
    requires c != Link(users, b, code, pick, newId, now).value.couple.user2
    requires IsFindOne(Link(users, b, code, pick, newId, now).value.users, c, code, pick2)
    ensures Link(Link(users, b, code, pick, newId, now).value.users, c, code, pick2, newId2, now2)
            == Failure(PartnerNotFound)
  {
    var l := Link(users, b, code, pick, newId, now).value;
    var a := l.couple.user2;
    if pick2.Some? {
      var p := pick2.value;
      CandidateIsEligible(l.users, c, code, p);
      assert p != b && p != a;
      assert Eligible(users, b, code, p);
      assert false;
    }
  }

  /** The durable pairing invariant: every couple's two members point back at
      it, and every paired user is a member of the couple they point at. */
  predicate Consistent(users: Users, couples: map<CoupleId, Couple>)
  {
    && (forall c :: c in couples ==>
          && couples[c].id == c
          && couples[c].user1 != couples[c].user2
          && couples[c].user1 in users && users[couples[c].user1] == Some(c)
          && couples[c].user2 in users && users[couples[c].user2] == Some(c))
    && (forall u :: u in users && users[u].Some? ==>
          && users[u].value in couples
          && (couples[users[u].value].user1 == u || couples[users[u].value].user2 == u))
  }

  /** Recording the new couple keeps the invariant: nobody ends up in two
      couples and no couple gains a third member. */
  lemma {:induction false} LinkPreservesConsistency(users: Users, couples: map<CoupleId, Couple>,
                                                    requester: UserId, code: string,
                                                    pick: Option<UserId>, newId: CoupleId, now: int)
    requires Consistent(users, couples)
    requires newId !in couples
    requires IsFindOne(users, requester, code, pick)
    requires Link(users, requester, code, pick, newId, now).Success?
    ensures var l := Link(users, requester, code, pick, newId, now).value;
            Consistent(l.users, couples[newId := l.couple])
  {
    var l := Link(users, requester, code, pick, newId, now).value;
    PairUpdateConsistent(users, couples, l.couple);
  }

  /** Pointing two unpaired users at a new couple that names them keeps the
      invariant. */
  lemma PairUpdateConsistent(users: Users, couples: map<CoupleId, Couple>, cpl: Couple)
    requires Consistent(users, couples)
    requires cpl.id !in couples && cpl.user1 != cpl.user2
    requires cpl.user1 in users && users[cpl.user1].None?
    requires cpl.user2 in users && users[cpl.user2].None?
    ensures Consistent(users[cpl.user1 := Some(cpl.id)][cpl.user2 := Some(cpl.id)], couples[cpl.id := cpl])
  {
    var users' := users[cpl.user1 := Some(cpl.id)][cpl.user2 := Some(cpl.id)];
    var couples' := couples[cpl.id := cpl];
    forall u | u in users' && users'[u].Some?
      ensures users'[u].value in couples'
      ensures couples'[users'[u].value].user1 == u || couples'[users'[u].value].user2 == u
    {
      if u != cpl.user1 && u != cpl.user2 {
        assert users'[u] == users[u];
      }
    }
  }

  /** In a consistent table the users sharing a couple id are exactly its two
      members: the relationship is one to one. */
  lemma CoupleHasTwoMembers(users: Users, couples: map<CoupleId, Couple>, c: CoupleId, u: UserId)
    requires Consistent(users, couples)
    requires c in couples
    ensures u in users && users[u] == Some(c) <==> u == couples[c].user1 || u == couples[c].user2
  {
  }
}

=== FILE: recent.dfy ===
/** `find(...).sort("created_at", -1).to_list(n)`: the `n` newest documents
    of a filtered collection, newest first.

    MongoDB leaves the order of documents with equal `created_at`
    unspecified; this model fixes one order (the insertion sort is stable:
    documents with equal keys keep their collection order), and no
    contract depends on it. */
module Recent {
  import opened Shared

  predicate NewestFirst<T>(s: seq<T>, key: T -> int)
  {
    forall i, j :: 0 <= i < j < |s| ==> key(s[i]) >= key(s[j])
  }

  /** The documents of `s`, in order, that the query filter `p` keeps. */
  function Filter<T>(s: seq<T>, p: T -> bool): (r: seq<T>)
    ensures forall x :: x in r ==> p(x)
    ensures forall x :: x in s && p(x) ==> multiset(r)[x] == multiset(s)[x]
    ensures multiset(r) <= multiset(s)
  {
    if |s| == 0 then []
    else
      assert s == [s[0]] + s[1..];
      if p(s[0]) then [s[0]] + Filter(s[1..], p) else Filter(s[1..], p)
  }

  /** A newest-first list stays so under a head at least as new as its first element. */
  lemma ConsNewestFirst<T>(h: T, rest: seq<T>, key: T -> int)
    requires NewestFirst(rest, key)
    requires |rest| > 0 ==> key(h) >= key(rest[0])
    ensures NewestFirst([h] + rest, key)
  {
    forall j | 0 <= j < |rest| ensures key(h) >= key(rest[j]) {
      assert key(rest[0]) >= key(rest[j]);
    }
  }

  function Insert<T>(x: T, s: seq<T>, key: T -> int): (r: seq<T>)
    requires NewestFirst(s, key)
    ensures |r| == |s| + 1
    ensures r[0] == x || (|s| > 0 && r[0] == s[0])
    ensures NewestFirst(r, key)
    ensures multiset(r) == multiset(s) + multiset{x}
  {
    if |s| == 0 || key(x) >= key(s[0]) then
      [x] + s
    else
      var rest := Insert(x, s[1..], key);
      ConsNewestFirst(s[0], rest, key);
      assert s == [s[0]] + s[1..];
      [s[0]] + rest
  }

  function SortNewestFirst<T>(s: seq<T>, key: T -> int): (r: seq<T>)
    ensures |r| == |s|
    ensures NewestFirst(r, key)
    ensures multiset(r) == multiset(s)
  {
    if |s| == 0 then []
    else
      assert s == [s[0]] + s[1..];
      Insert(s[0], SortNewestFirst(s[1..], key), key)
  }

  lemma SplitMultiset<T>(s: seq<T>, k: nat)
    requires k <= |s|
    ensures multiset(s) == multiset(s[..k]) + multiset(s[k..])
  {
    assert s == s[..k] + s[k..];
  }

  /** In a newest-first list, everything after position `k` is no newer
      than anything before it. */
  lemma SuffixIsOlder<T>(sorted: seq<T>, key: T -> int, k: nat, x: T)
    requires NewestFirst(sorted, key)
    requires k <= |sorted|
    requires x in sorted[k..]
    ensures forall y :: y in sorted[..k] ==> key(y) >= key(x)
  {
    var j :| k <= j < |sorted| && sorted[j] == x;
    forall y | y in sorted[..k] ensures key(y) >= key(x) {
      var i :| 0 <= i < k && sorted[i] == y;
    }
  }

  /** Cutting a newest-first list after `k` elements keeps it newest first,
      and everything cut off is no newer than anything kept. */
  lemma {:induction false} PrefixIsNewest<T>(sorted: seq<T>, key: T -> int, k: nat)
    requires NewestFirst(sorted, key)
    requires k <= |sorted|
    ensures NewestFirst(sorted[..k], key)
    ensures multiset(sorted[..k]) <= multiset(sorted)
    ensures forall x :: multiset(sorted[..k])[x] < multiset(sorted)[x] ==>
              forall y :: y in sorted[..k] ==> key(y) >= key(x)
  {
    SplitMultiset(sorted, k);
    forall x | multiset(sorted[..k])[x] < multiset(sorted)[x]
      ensures forall y :: y in sorted[..k] ==> key(y) >= key(x)
    {
      assert x in multiset(sorted[k..]);
      SuffixIsOlder(sorted, key, k, x);
    }
  }

  /** The `limit` newest elements of `s`, newest first: no element left out
      is newer than an element kept. */
  function Newest<T>(s: seq<T>, key: T -> int, limit: nat): (r: seq<T>)
    ensures |r| == Min(limit, |s|)
    ensures NewestFirst(r, key)
    ensures multiset(r) <= multiset(s)
    ensures forall x :: x in s && multiset(r)[x] < multiset(s)[x] ==>
              forall y :: y in r ==> key(y) >= key(x)
  {
    var sorted := SortNewestFirst(s, key);
    PrefixIsNewest(sorted, key, Min(limit, |s|));
    sorted[..Min(limit, |s|)]
  }

  /** With no more than `limit` elements, every one is returned. */
  lemma NewestKeepsAllWhenFew<T>(s: seq<T>, key: T -> int, limit: nat)
    requires |s| <= limit
    ensures multiset(Newest(s, key, limit)) == multiset(s)
  {
    var r := Newest(s, key, limit);
    assert |multiset(r)| == |multiset(s)|;
    assert multiset(s) == multiset(r) + (multiset(s) - multiset(r));
  }

  /** Every element of a sub-multiset is an element of the whole. */
  lemma SubMember<T>(r: seq<T>, s: seq<T>, x: T)
    requires multiset(r) <= multiset(s)
    requires x in r
    ensures x in s
  {
    assert x in multiset(r);
  }

  lemma {:induction false} FilterShorter<T>(s: seq<T>, p: T -> bool)
    ensures |Filter(s, p)| <= |s|
  {
    if |s| > 0 {
      FilterShorter(s[1..], p);
    }
  }

  /** A whole query: the `limit` newest documents of `s` that satisfy `p`.
      A matching document is missing from the answer only when the answer is
      full and every document in it is at least as new. */
  function Query<T>(s: seq<T>, p: T -> bool, key: T -> int, limit: nat): (r: seq<T>)
    ensures |r| <= limit && |r| <= |s|
    ensures multiset(r) <= multiset(s)
    ensures forall x :: x in r ==> x in s && p(x)
    ensures NewestFirst(r, key)
    ensures forall x :: x in s && p(x) && x !in r ==>
              |r| == limit && forall y :: y in r ==> key(y) >= key(x)
  {
    var matching := Filter(s, p);
    var r := Newest(matching, key, limit);
    FilterShorter(s, p);
    forall x | x in r ensures x in s && p(x) {
      SubMember(r, matching, x);
      SubMember(matching, s, x);
    }
    forall x | x in s && p(x) && x !in r
      ensures |r| == limit && forall y :: y in r ==> key(y) >= key(x)
    {
      assert multiset(matching)[x] == multiset(s)[x];
      assert x in multiset(matching);
      if |r| != limit {
        NewestKeepsAllWhenFew(matching, key, limit);
      }
    }
    r
  }
}

=== FILE: shared.dfy ===
/** Constants shared by the backend and the client, and the one arithmetic
    helper both use. */
module Shared {

  /** Time is counted in milliseconds, as JavaScript's date difference is. */
  const MillisPerMinute: int := 60000
  const MillisPerHour: int := 60 * MillisPerMinute

  /** A pairing code is six characters: `id[-6:]` on the server, the input
      cut to six digits and the submit gate on the client. */
  const CodeLength: nat := 6

  function Min(a: int, b: int): (r: int)
    ensures r <= a && r <= b
    ensures r == a || r == b
  {
    if a <= b then a else b
  }
}

=== FILE: tasks.dfy ===
/** The task lifecycle as `backend/server.py` implements it: `create_task`,
    `get_tasks` and `submit_proof`. Approval, rejection, expiry sweeps and
    the token ledger have no endpoint in that file and are not modelled.
    Time is an integer count of milliseconds. */
module Tasks {
  import opened Wrappers
  import opened Ids
  import opened Shared
  import Recent
  import Pairing

  datatype Status = Pending | Completed | Approved | Rejected | Expired

  /** The string stored in the task document's `status` field. */
  function StatusName(s: Status): (r: string)
    ensures ParseStatus(r) == Some(s)
  {
    match s
    case Pending => "pending"
    case Completed => "completed"
    case Approved => "approved"
    case Rejected => "rejected"
    case Expired => "expired"
  }

  function ParseStatus(name: string): Option<Status>
  {
    if name == "pending" then Some(Pending)
    else if name == "completed" then Some(Completed)
    else if name == "approved" then Some(Approved)
    else if name == "rejected" then Some(Rejected)
    else if name == "expired" then Some(Expired)
    else None
  }

  /** Parsing accepts exactly the five stored names. */
  lemma ParseStatusInverse(name: string)
    ensures ParseStatus(name).Some? ==> StatusName(ParseStatus(name).value) == name
  {
  }

  /** The `Task.tokens_earned` default, which is what every task gets. */
  const DefaultTokens: int := 5
  /** `get_tasks` returns at most this many tasks. */
  const TaskQueryLimit: nat := 20

  datatype Task = Task(
    id: TaskId,
    coupleId: CoupleId,
    creatorId: UserId,
    receiverId: UserId,
    title: string,
    description: string,
    reward: Option<string>,
    durationMinutes: int,
    status: Status,
    proofText: Option<string>,
    proofPhoto: Option<string>,
    createdAt: int,
    expiresAt: int,
    completedAt: Option<int>,
    approvedAt: Option<int>,
    tokensEarned: int,
    approvalMessage: Option<string>)

  datatype TaskRequest = TaskRequest(title: string, description: string, reward: Option<string>,
                                     durationMinutes: int, tokensEarned: int)

  /** The body of a proof submission (`TaskProof`). */
  datatype Proof = Proof(text: Option<string>, photo: Option<string>)

  datatype TaskError =
    | NotLinked        // 400 "Must be linked with a partner to create tasks"
    | PartnerNotFound  // 404 "Partner not found"
    | TaskNotFound     // 404 "Task not found"
    | NotReceiver      // 403 "Not authorized to submit proof for this task"
    | NotPending       // 400 "Task is not pending"
    | TaskExpired      // 400 "Task has expired"
    | InternalError    // 500, an exception escaping the handler

  /** What `find_one({"couple_id": c, "id": {"$ne": me}})` promises: some other
      user of the couple, or `None` only when there is none. */
  predicate IsPartnerQuery(users: Pairing.Users, me: UserId, c: CoupleId, pick: Option<UserId>)
  {
    && (pick.Some? ==> pick.value in users && users[pick.value] == Some(c) && pick.value != me)
    && (pick.None? ==> forall u :: u in users && u != me ==> users[u] != Some(c))
  }

  /** `POST /tasks`: a paired caller assigns a task to the other member of
      their couple. The task starts `pending`, expires `durationMinutes`
      after `now`, and is worth `DefaultTokens` whatever the request asked. */
  function CreateTask(caller: Caller, users: Pairing.Users, pick: Option<UserId>, req: TaskRequest,
                      now: int, newId: TaskId): (r: Result<Task, TaskError>)
    requires caller.coupleId.Some? ==> IsPartnerQuery(users, caller.id, caller.coupleId.value, pick)
    ensures r == Failure(NotLinked) <==> caller.coupleId.None?
    ensures r == Failure(PartnerNotFound) <==>
      caller.coupleId.Some? && forall u :: u in users && u != caller.id ==> users[u] != caller.coupleId
    ensures r.Success? ==>
      var t := r.value;
      && t.id == newId
      && t.coupleId == caller.coupleId.value
      && t.creatorId == caller.id
      && t.receiverId != caller.id
      && t.receiverId in users && users[t.receiverId] == caller.coupleId
      && t.title == req.title && t.description == req.description && t.reward == req.reward
      && t.durationMinutes == req.durationMinutes
      && t.status == Pending
      && t.createdAt == now
      && t.expiresAt - t.createdAt == req.durationMinutes * MillisPerMinute
      && t.proofText.None? && t.proofPhoto.None?
      && t.completedAt.None? && t.approvedAt.None? && t.approvalMessage.None?
      && t.tokensEarned == DefaultTokens
  {
    match caller.coupleId
    case None => Failure(NotLinked)
    case Some(c) =>
      match pick
      case None => Failure(PartnerNotFound)
      case Some(p) =>
        Success(Task(newId, c, caller.id, p, req.title, req.description, req.reward,
                     req.durationMinutes, Pending, None, None,
                     now, now + req.durationMinutes * MillisPerMinute,
                     None, None, DefaultTokens, None))
  }

  /** The `tokens_earned` of the request never reaches the task. */
  lemma CreateTaskIgnoresRequestedTokens(caller: Caller, users: Pairing.Users, pick: Option<UserId>,
                                         req: TaskRequest, now: int, newId: TaskId, tokens: int)
    requires caller.coupleId.Some? ==> IsPartnerQuery(users, caller.id, caller.coupleId.value, pick)
    ensures CreateTask(caller, users, pick, req, now, newId)
         == CreateTask(caller, users, pick, req.(tokensEarned := tokens), now, newId)
  {
  }

  /** In a consistent users table the receiver is the creator's partner:
      the other member of the creator's couple. */
  lemma CreateTaskReceiverIsPartner(caller: Caller, users: Pairing.Users, couples: map<CoupleId, Pairing.Couple>,
                                    pick: Option<UserId>, req: TaskRequest, now: int, newId: TaskId)
    requires Pairing.Consistent(users, couples)
    requires caller.id in users && users[caller.id] == caller.coupleId
    requires caller.coupleId.Some? ==> IsPartnerQuery(users, caller.id, caller.coupleId.value, pick)
    requires CreateTask(caller, users, pick, req, now, newId).Success?
    ensures var t := CreateTask(caller, users, pick, req, now, newId).value;
            var couple := couples[caller.coupleId.value];
            && {t.creatorId, t.receiverId} == {couple.user1, couple.user2}
  {
    var t := CreateTask(caller, users, pick, req, now, newId).value;
    var c := caller.coupleId.value;
    Pairing.CoupleHasTwoMembers(users, couples, c, t.receiverId);
    Pairing.CoupleHasTwoMembers(users, couples, c, t.creatorId);
  }

  function CreatedAt(t: Task): int
  {
    t.createdAt
  }

  predicate OfCouple(c: CoupleId, t: Task)
  {
    t.coupleId == c
  }

  /** `GET /tasks`: an unpaired caller sees nothing; otherwise the twenty
      newest tasks of the caller's couple, whatever their status. */
  function GetTasks(caller: Caller, tasks: seq<Task>): (r: seq<Task>)
    ensures caller.coupleId.None? ==> r == []
    ensures |r| <= TaskQueryLimit
    ensures multiset(r) <= multiset(tasks)
    ensures forall t :: t in r ==> t in tasks && t.coupleId == caller.coupleId.value
    ensures Recent.NewestFirst(r, CreatedAt)
    ensures caller.coupleId.Some? ==>
      forall t :: t in tasks && t.coupleId == caller.coupleId.value && t !in r ==>
        |r| == TaskQueryLimit && forall y :: y in r ==> y.createdAt >= t.createdAt
  {
    match caller.coupleId
    case None => []
    case Some(c) => Recent.Query(tasks, t => OfCouple(c, t), CreatedAt, TaskQueryLimit)
  }

  /** While the collection holds fewer tasks than the page size, the list
      shows every task of the caller's couple. */
  lemma GetTasksListsAllWhenFew(caller: Caller, tasks: seq<Task>)
    requires caller.coupleId.Some?
    requires |tasks| < TaskQueryLimit
    ensures forall t :: t in tasks && t.coupleId == caller.coupleId.value ==> t in GetTasks(caller, tasks)
  {
  }

  /** `find_one({"id": taskId})` on the collection in its natural order. */
  function FindTask(tasks: seq<Task>, taskId: TaskId): (r: Option<nat>)
    ensures r.Some? ==> r.value < |tasks| && tasks[r.value].id == taskId
    ensures r.Some? ==> forall j :: 0 <= j < r.value ==> tasks[j].id != taskId
    ensures r.None? ==> forall j :: 0 <= j < |tasks| ==> tasks[j].id != taskId
  {
    if |tasks| == 0 then None
    else if tasks[0].id == taskId then Some(0)
    else match FindTask(tasks[1..], taskId)
      case None => None
      case Some(j) => Some(j + 1)
  }

  /** Two task documents agree on everything a proof submission leaves alone. */
  predicate SameExceptProof(a: Task, b: Task)
  {
    && a.id == b.id && a.coupleId == b.coupleId
    && a.creatorId == b.creatorId && a.receiverId == b.receiverId
    && a.title == b.title && a.description == b.description && a.reward == b.reward
    && a.durationMinutes == b.durationMinutes
    && a.createdAt == b.createdAt && a.expiresAt == b.expiresAt
    && a.completedAt == b.completedAt && a.approvedAt == b.approvedAt
    && a.tokensEarned == b.tokensEarned && a.approvalMessage == b.approvalMessage
  }

  /** `PATCH /tasks/{id}/proof` with the expiry test the code evidently means,
      `now > expires_at`, and the proof's text and photo recorded.

      The guards run in order: missing task, wrong caller, not pending,
      expired. A refused submission changes nothing; an accepted one moves
      the task from `pending` to `completed`, records the proof and touches
      no other field and no other task. */
  function SubmitProof(tasks: seq<Task>, taskId: TaskId, caller: UserId, proof: Proof, now: int):
    (r: Result<seq<Task>, TaskError>)
    ensures r == Failure(TaskNotFound) <==> forall j :: 0 <= j < |tasks| ==> tasks[j].id != taskId
    ensures FindTask(tasks, taskId).Some? ==>
      var t := tasks[FindTask(tasks, taskId).value];
      && (r == Failure(NotReceiver) <==> t.receiverId != caller)
      && (r == Failure(NotPending) <==> t.receiverId == caller && t.status != Pending)
      && (r == Failure(TaskExpired) <==>
            t.receiverId == caller && t.status == Pending && now > t.expiresAt)
      && (r.Success? <==> t.receiverId == caller && t.status == Pending && now <= t.expiresAt)
    ensures r.Success? ==>
      var i := FindTask(tasks, taskId).value;
      && |r.value| == |tasks|
      && (forall j :: 0 <= j < |tasks| && j != i ==> r.value[j] == tasks[j])
      && SameExceptProof(tasks[i], r.value[i])
      && tasks[i].status == Pending && r.value[i].status == Completed
      && r.value[i].proofText == proof.text && r.value[i].proofPhoto == proof.photo
  {
    match FindTask(tasks, taskId)
    case None => Failure(TaskNotFound)
    case Some(i) =>
      var t := tasks[i];
      if t.receiverId != caller then Failure(NotReceiver)
      else if t.status != Pending then Failure(NotPending)
      else if now > t.expiresAt then Failure(TaskExpired)
      else Success(tasks[i := t.(status := Completed, proofText := proof.text, proofPhoto := proof.photo)])
  }

  /** `submit_proof` exactly as written. The guards are the same, but once
      they pass the handler raises: the stored `expires_at` is a datetime, on
      which `.replace("Z", "+00:00")` is a `TypeError`, and `proof.proof_url`
      names a field `TaskProof` does not have. Both exceptions surface as 500
      and the task is never updated. */
  function SubmitProofAsWritten(tasks: seq<Task>, taskId: TaskId, caller: UserId, proof: Proof, now: int):
    (r: Result<seq<Task>, TaskError>)
    ensures r.Failure?
    ensures r.error != InternalError ==> r == SubmitProof(tasks, taskId, caller, proof, now)
    ensures r.error == InternalError <==>
      (SubmitProof(tasks, taskId, caller, proof, now).Success?
       || SubmitProof(tasks, taskId, caller, proof, now) == Failure(TaskExpired))
  {
    match FindTask(tasks, taskId)
    case None => Failure(TaskNotFound)
    case Some(i) =>
      var t := tasks[i];
      if t.receiverId != caller then Failure(NotReceiver)
      else if t.status != Pending then Failure(NotPending)
      else Failure(InternalError)
  }

  /** The input that shows the discrepancy: the receiver submits in time and
      the corrected handler completes the task, while the handler as written
      answers 500. */
  lemma SubmitProofAsWrittenFailsInTime()
    ensures var t := Task("t1", "c1", "alice", "bob", "kiss", "", None, 60, Pending, None, None,
                          0, 3600000, None, None, DefaultTokens, None);
            && SubmitProof([t], "t1", "bob", Proof(Some("done"), None), 60000).Success?
            && SubmitProofAsWritten([t], "t1", "bob", Proof(Some("done"), None), 60000) == Failure(InternalError)
  {
  }

  /** Proof may still be submitted at the expiry instant itself. */
  lemma SubmitAtExpiryAccepted(tasks: seq<Task>, taskId: TaskId, proof: Proof)
    requires FindTask(tasks, taskId).Some?
    requires tasks[FindTask(tasks, taskId).value].status == Pending
    ensures var t := tasks[FindTask(tasks, taskId).value];
            SubmitProof(tasks, taskId, t.receiverId, proof, t.expiresAt).Success?
  {
  }

  /** A submission only ever moves one task from `pending` to `completed`;
      every other status, including the terminal ones, stays put. */
  lemma SubmitProofOnlyAdvances(tasks: seq<Task>, taskId: TaskId, caller: UserId, proof: Proof, now: int)
    requires SubmitProof(tasks, taskId, caller, proof, now).Success?
    ensures var r := SubmitProof(tasks, taskId, caller, proof, now).value;
            forall j :: 0 <= j < |tasks| ==>
              r[j].status == tasks[j].status || (tasks[j].status == Pending && r[j].status == Completed)
  {
  }

  /** A successful submission keeps every task id, so the same task is found
      again, and a second submission for it is refused as not pending. */
  lemma {:induction false} SubmitTwiceFails(tasks: seq<Task>, taskId: TaskId, caller: UserId,
                                            proof: Proof, now: int, proof2: Proof, now2: int)
    requires SubmitProof(tasks, taskId, caller, proof, now).Success?
    ensures SubmitProof(SubmitProof(tasks, taskId, caller, proof, now).value, taskId, caller, proof2, now2)
            == Failure(NotPending)
  {
    var r := SubmitProof(tasks, taskId, caller, proof, now).value;
    var i := FindTask(tasks, taskId).value;
    SameIdsSameFind(tasks, r, taskId);
    assert r[i].status == Completed;
  }

  lemma SameIdsSameFind(a: seq<Task>, b: seq<Task>, taskId: TaskId)
    requires |a| == |b|
    requires forall j :: 0 <= j < |a| ==> a[j].id == b[j].id
    ensures FindTask(a, taskId) == FindTask(b, taskId)
  {
  }

  /** `completed_at` is declared but no handler sets it: a task created and
      then completed still has none. */
  lemma CompletedAtNeverSet(caller: Caller, users: Pairing.Users, pick: Option<UserId>, req: TaskRequest,
                            now: int, newId: TaskId, proof: Proof, now2: int)
    requires caller.coupleId.Some? ==> IsPartnerQuery(users, caller.id, caller.coupleId.value, pick)
    requires CreateTask(caller, users, pick, req, now, newId).Success?
    requires var t := CreateTask(caller, users, pick, req, now, newId).value;
             SubmitProof([t], newId, t.receiverId, proof, now2).Success?
    ensures var t := CreateTask(caller, users, pick, req, now, newId).value;
            var r := SubmitProof([t], newId, t.receiverId, proof, now2).value;
            r[0].status == Completed && r[0].completedAt.None?
  {
  }
}

=== FILE: wrappers.dfy ===
/** Failure-compatible wrappers used by every module of the model. */
module Wrappers {

  /** A value that may be absent: Python's `None`, a missing document. */
  datatype Option<+T> = None | Some(value: T)

  /** Either the outcome of an operation or the error that ended it. */
  datatype Result<+R, +E> = Success(value: R) | Failure(error: E)
}
